=== FILE: README.md ===
# Douban scraper core, modelled in Dafny

This project models the pure string and tree logic of `src/debug.py`, the Douban book
metadata scraper:

- **Redirect unwrapping** (`calc_url`). A search-result link's query string is split on `&` and
  `=`. Its `url` parameter is percent-decoded. The result is kept only when it matches
  `.*/subject/(\d+)/?`.
- **Candidate collection** (`load_book_urls_new`). This is the accumulate-and-cap loop over
  the search page's thumbnail anchors: page order, at most 100 entries.
- **Tag fallback** (`get_tags`). The first `criteria = '...'` payload is split on `|`.
  Segments that are non-empty and start with `7:` are kept, and every `7:` is removed from them.
- **Element-tree text helpers** (`get_text`, `get_tail`) and the author filter (`author_filter`).
- **Record assembly** in `parse_book`:
  - title
  - URL override
  - id
  - cover
  - rating text
  - label-row dispatch over seven prefixes
  - description
  - tags
  - the fixed source descriptor

The lxml tree is an immutable `Tree.Node` (tag, attributes, text, tail, children, next sibling).
An absent text or tail is the empty string. Python treats `None` and `''` alike at every place
the source reads them. XPath results are given node sequences (`Detail.Page`). Python
exceptions are values of `Wrappers.Result`: `KeyError`, `IndexError`, `TypeError` and `AttributeError`.

The Python library behaviour the core relies on is written out:

- `str.strip` over the full `str.isspace` set (`Text.Strip`).
- `str.split` with a one-character separator (`Text.Split`).
- `str.replace(pat, '')` as a left-to-right, non-overlapping scan (`Text.RemoveAll`).
- `urlparse(...).query` (`Query.QueryOf`):
  - tab, CR and LF are deleted;
  - the fragment starts at the first `#`;
  - the query is the text after the first `?`.
- `unquote` (`Percent.Unquote`):
  - text without `%` is unchanged;
  - otherwise each run of ASCII characters is percent-decoded to bytes and decoded as UTF-8,
    with U+FFFD replacing each maximal invalid subpart (`Utf8.Decode`).
- `re.match(".*/subject/(\d+)/?", url)` (`Subject.SubjectId`). `.*` is greedy and stops at the
  first line break, so the captured digits follow the last `/subject/` on the first line that is
  followed by a digit.
- `re.findall("criteria = '(.+)'", content)[0]` (`Tags.CriteriaPayload`). The match is the
  leftmost opening, closed greedily at the last quote on the same line.

Modules: `Wrappers`, `Filter`, `Text`, `Utf8`, `Percent`, `Subject`, `Tree`, `Query`, `Tags`, `Detail`.
Each one is in the lower-case `.dfy` file of the same name.

In these places the code does something a reader might not expect:

- A search page with a status other than 200 or 201 yields an empty candidate list
  (`Query.LoadBookUrls`). It is not a failure.
- A search page with status 200 or 201 that lxml cannot parse raises AttributeError
  (`Query.LoadBookUrls`): unlike `parse_book`, `load_book_urls_new` does not check for `None`.
- Malformed redirect links are not skipped: an item without `=` raises IndexError, and a missing
  `url` parameter raises KeyError. The exception aborts the whole candidate collection.
- `parse_book` does not always fall back to defaults:
  - an author or translator anchor without `href` raises KeyError;
  - so does a thumbnail anchor without `href`;
  - a series label with no next sibling raises TypeError (`get_text(None)`);
  - so does a blank tail with no next sibling.
- The tag marker is removed wherever it occurs in a kept segment, not only as a prefix.
- The description is the stripped serialisation of the whole last intro element. It is not
  only its inner markup.

## Model

| member | source | states |
|---|---|---|
| Text.Strip | src/debug.py:92-94 | `str.strip`: the result is the input with a blank prefix and a blank suffix cut off, and has no surrounding whitespace itself; it is empty exactly when the input is all whitespace; already-trimmed text is unchanged |
| Text.StripUnique | src/debug.py:92-94 | any cut of the input into blank text, trimmed text and blank text is the one `strip` makes |
| Text.StripIdempotent | src/debug.py:83-84 | stripping twice gives the same text as stripping once |
| Text.Find | src/debug.py:47 | the index of the first occurrence of a character, or the length when there is none |
| Text.Split | src/debug.py:47 | `str.split(sep)`: at least one piece, no piece holds the separator, and joining the pieces with the separator gives the input back |
| Text.SplitJoin | src/debug.py:58 | splitting a join of separator-free pieces gives the pieces back |
| Text.SplitHead | src/debug.py:47 | the first piece is the text before the first separator; there are two or more pieces exactly when the separator occurs |
| Text.SplitSecond | src/debug.py:47 | when the separator occurs, the second piece is the text between its first and second occurrence |
| Text.RemoveAll | src/debug.py:57 | `replace(pat, '')` never lengthens the text and leaves text without the pattern unchanged |
| Text.RemoveAllLeading | src/debug.py:57 | removing a pattern from text that starts with it equals removing it from the rest |
| Text.RemoveAllSplits | src/debug.py:57 | for a pattern of two different characters, such as `7:`, removal deletes an occurrence wherever it stands and cleans the text on each side of it independently |
| Text.ContainsAt | src/debug.py:104 | `p in s` holds exactly when `p` equals some slice of `s` |
| Utf8.Decode | src/debug.py:48 | UTF-8 decoding with replacement yields no more characters than there are bytes |
| Utf8.Encode | src/debug.py:48 | a character encodes to 1 to 4 bytes whose lead byte announces the length; exactly ASCII is one byte |
| Utf8.MultiByteReadsBack | src/debug.py:48 | the two-, three- or four-byte encoding of a character is a complete well-formed sequence whose scalar value is that character, whatever bytes follow |
| Utf8.DecodeEncodeChar | src/debug.py:48 | decoding reads back the first encoded character and then continues with the bytes after it |
| Utf8.DecodeEncode | src/debug.py:48 | UTF-8 decoding of the UTF-8 encoding of any text gives the text back |
| Utf8.DecodeInvalidLead | src/debug.py:48 | a byte that opens no UTF-8 sequence decodes to one U+FFFD and decoding continues after it |
| Utf8.DecodeLeadAtEnd | src/debug.py:48 | a multi-byte lead byte at the end of the input decodes to one U+FFFD |
| Utf8.DecodeBadSecond | src/debug.py:48 | a multi-byte lead followed by a byte outside its second-byte range decodes to one U+FFFD and decoding resumes at that byte |
| Utf8.DecodeBadThird | src/debug.py:48 | a three- or four-byte lead with a good second byte, followed by a non-continuation byte, is one U+FFFD for both bytes and decoding resumes at the third |
| Utf8.DecodeReplacementExamples | src/debug.py:48 | a stray continuation byte, 0xFF, and a truncated three-byte sequence each decode to one U+FFFD |
| Percent.Unquote | src/debug.py:48 | `unquote` never lengthens its input and returns text without `%` unchanged |
| Percent.UnquoteToBytes | src/debug.py:48 | `unquote_to_bytes` on ASCII text yields no more bytes than there are characters |
| Percent.DecodeRuns | src/debug.py:48 | decoding the ASCII runs and keeping the other characters never lengthens the text |
| Percent.UnquoteLonePercent | src/debug.py:48 | a `%` not followed by two hex digits stays a literal `%` byte |
| Percent.UnquoteEitherCase | src/debug.py:48 | hex digits are read in either case: `%e9` and `%E9` are both the byte 0xE9 |
| Percent.UnquoteLiteral | src/debug.py:48 | any ASCII character other than `%` is the one byte of its code, wherever it stands |
| Percent.UnquoteEscape | src/debug.py:48 | `%` and two hex digits are the single byte those digits spell, high digit first |
| Percent.UnquoteInvalidByte | src/debug.py:48 | `unquote('%FF')` is U+FFFD |
| Percent.UnquoteTruncated | src/debug.py:48 | `unquote('%E2%80')`, a cut-short sequence, is one U+FFFD |
| Percent.AsciiRunStops | src/debug.py:48 | a non-ASCII character ends the ASCII run that precedes it |
| Percent.DecodeRunsAround | src/debug.py:48 | a non-ASCII character is copied through unchanged and the text on each side of it is decoded on its own |
| Percent.QuoteBytes | src/debug.py:48 | percent-encoding yields ASCII made only of unreserved characters and `%` |
| Percent.QuoteByte | src/debug.py:48 | one quoted byte is non-empty ASCII made only of unreserved characters and `%` |
| Percent.QuoteHasNoDelimiters | src/debug.py:47 | a percent-encoded value contains no `=`, `&`, `#`, `?`, tab, CR or LF, so the query parser keeps it whole |
| Percent.UnquoteQuoteByte | src/debug.py:48 | `unquote_to_bytes` reads one quoted byte back as that byte, whatever ASCII text follows |
| Percent.UnquoteQuoteBytes | src/debug.py:48 | percent-decoding the percent-encoding of any bytes gives the bytes back |
| Percent.UnquoteQuote | src/debug.py:48 | `unquote(quote(s)) == s` for every text |
| Subject.LastSubjectAt | src/debug.py:23 | the greedy `.*` settles on the last `/subject/<digit>` position at or before the bound, and there is none after it |
| Subject.DigitRun | src/debug.py:23 | `\d+` takes the longest run of digits |
| Subject.SubjectId | src/debug.py:118-120 | the pattern matches exactly when `/subject/` followed by a digit starts on the first line; the captured id is the whole run of digits after the last such marker on the first line, so it is a non-empty digit string |
| Subject.SubjectIdOfBookUrl | src/debug.py:20-23 | a detail-page address built from a digit id matches, and its captured group is that id |
| Tree.NextOf | src/debug.py:85 | `getnext()` is None exactly when the node has no next sibling |
| Tree.Attr | src/debug.py:103 | `attrib[key]` returns the attribute when present and raises KeyError for that key otherwise |
| Tree.GetText | src/debug.py:89-95 | `get_text` raises TypeError exactly on None. Otherwise the result is the default or a non-empty stripped text. A first child's non-empty text wins over the element's own text. A list uses only its first node's text. A non-empty default never yields an empty result |
| Tree.NodeText | src/debug.py:135 | `get_text` on an element never raises |
| Tree.ListText | src/debug.py:113 | `get_text` on an XPath result list never raises, and an empty list gives the default |
| Tree.GetTail | src/debug.py:80-86 | `get_tail`: no tail gives the default; a non-blank tail gives the stripped tail; a blank tail falls back one level to `get_text` of the next sibling and raises exactly when there is none; a non-empty default never yields an empty result |
| Query.RemoveUnsafe | src/debug.py:46 | `urlsplit` deletes tab, CR and LF; text without them is unchanged |
| Query.RemoveUnsafeConcat | src/debug.py:46 | deleting tab, CR and LF works piece by piece: the cleaned concatenation is the concatenation of the cleaned pieces |
| Query.RemoveUnsafeAt | src/debug.py:46 | every character is judged on its own wherever it stands: tab, CR and LF are deleted and every other character is kept in place |
| Query.QueryOf | src/debug.py:46 | the extracted query contains no `#` and no tab, CR or LF |
| Query.QueryOfBuilt | src/debug.py:46 | parsing `base?query` gives the query back |
| Query.QueryOfBuiltWithFragment | src/debug.py:46 | a fragment after the query is not part of it |
| Query.QueryOfIgnoresUnsafe | src/debug.py:46 | a tab, CR or LF anywhere in the href is deleted before the query is extracted |
| Query.QueryOfNoQuestion | src/debug.py:46 | an href with no `?` before its fragment has an empty query, with or without a fragment |
| Query.LastValue | src/debug.py:47 | there is no value exactly when no item has the key |
| Query.SplitItem | src/debug.py:47 | `item.split('=')[0]` and `[1]` are the key before the first `=` and the value between the first and second `=` |
| Query.AddParams | src/debug.py:47 | the dict comprehension raises nothing but IndexError, keeps every key it started with, and changes nothing when there are no items |
| Query.AddParamsLastWins | src/debug.py:47 | the dict comprehension raises IndexError exactly when some item lacks `=`; otherwise a key maps to the value of its last item, and other keys are unchanged |
| Query.CalcUrl | src/debug.py:45-50 | an address `calc_url` returns always matches the subject pattern |
| Query.CalcUrlSpec | src/debug.py:45-50 | `calc_url`: IndexError for an item without `=`, KeyError `url` when no item has that key, else the decoded last `url` value exactly when it matches the pattern, else nothing |
| Query.QuotedUrlItem | src/debug.py:47 | `url=<quoted u>` is one item with key `url` and value `<quoted u>` |
| Query.UrlItem | src/debug.py:47 | `url=` followed by text without `#`, `&` or `=` is one safe item whose key is `url` and whose value is that text |
| Query.RedirectItems | src/debug.py:46-47 | the query of `base?url=<quoted u>` is the single item `url=<quoted u>` |
| Query.UrlQuery | src/debug.py:46-47 | the query of `base?url=<q>`, for `q` without `#`, `&` or `=`, is one item whose `url` value is `q` |
| Query.SingleItemQuery | src/debug.py:46-47 | the query of `base?item`, for an item without `&` or `#`, splits into exactly that item |
| Query.CalcUrlOfRedirect | src/debug.py:45-50 | a redirect link carrying a quoted detail-page address unwraps to exactly that address |
| Query.Unwrap | src/debug.py:72-73 | an anchor without `href` raises KeyError; otherwise the result is `calc_url` of the href, and an accepted result is a subject address |
| Query.Accepted | src/debug.py:71-74 | the accepted addresses in page order are all subject addresses, no more than there are anchors |
| Query.Take | src/debug.py:75-76 | the kept prefix has at most `n` entries and is a prefix of the list; a short list is kept whole |
| Query.TakeSnoc | src/debug.py:75-76 | appending under the cap appends; appending at the cap changes nothing |
| Query.LoadBookUrls | src/debug.py:66-77 | a status other than 200/201 gives `[]`; a page lxml cannot parse raises AttributeError at `html.xpath`; an exception of any anchor propagates; otherwise the result is the first 100 accepted addresses in page order; at most 100 entries, all subject addresses |
| Tags.CloseAt | src/debug.py:54-55 | the greedy `(.+)'` closes at the last quote on the opening's line that leaves a non-empty capture, and at nothing when no such quote exists |
| Tags.NoCloseFrom | src/debug.py:54-55 | an opening cannot close past a point after which its line holds no quote |
| Tags.FirstMatchFrom | src/debug.py:55 | the leftmost opening that the pattern can close, with its greedy close |
| Tags.CriteriaPayload | src/debug.py:54-56 | there is no payload exactly when the pattern matches nowhere; a payload is non-empty and single-line, and is the capture of the leftmost opening closed at its last possible quote |
| Tags.NoOpeningBefore | src/debug.py:54 | no match can open inside quote-free text before an opening |
| Tags.FirstMatchIs | src/debug.py:54-55 | when an opening closes at a quote, no earlier opening closes and the opening closes at no later quote, findall's first result is the text between them |
| Tags.MatchAtLineEnd | src/debug.py:54 | an opening followed by a one-line payload and a quote that ends the line matches there, capturing the payload, and closes at no later quote |
| Tags.CriteriaPayloadOf | src/debug.py:54-56 | a page holding `criteria = '<payload>'` at the end of a line, with no quote before it, yields exactly that payload |
| Tags.TagsOfSegments | src/debug.py:57-58 | the filter yields at most one tag per segment |
| Filter.KeptIndicesKept | src/debug.py:58 | every index `filter` keeps points at an element its predicate accepts (for the tags: a segment that is non-empty and starts with `7:`) |
| Filter.KeptIndicesIncreasing | src/debug.py:58 | the kept indices are strictly increasing, so `filter` keeps the input order |
| Filter.KeptIndicesComplete | src/debug.py:58 | every element the predicate accepts has its index kept |
| Tags.TagsFollowSegments | src/debug.py:57-58 | the tags are the kept segments in segment order, each with every `7:` removed |
| Tags.TagsOfPayload | src/debug.py:58 | at most one tag per `\|`-segment of the payload |
| Tags.TagsOfPayloadKept | src/debug.py:57-58 | each tag of a payload is one of its `7:`-marked segments with every `7:` removed |
| Tags.TagsOfJoinedSegments | src/debug.py:58 | a payload joined from `\|`-free segments yields the tags of those segments |
| Tags.GetTags | src/debug.py:53-59 | `get_tags`: `[]` without a match; otherwise at most one tag per segment, each a kept segment with every `7:` removed |
| Tags.GetTagsOf | src/debug.py:53-59 | `get_tags` on a page whose payload is joined from segments returns the tags of those segments |
| Tags.RemoveTagMarker | src/debug.py:57 | a `7:`-marked segment with no other `7` loses exactly its marker |
| Tags.RemoveMarkerInside | src/debug.py:57 | `7:a7:b` loses both markers, the one in the middle included, giving `ab` |
| Tags.TagsExample | src/debug.py:57-58 | `7:fiction\|7:classic\|3:other` gives `["fiction", "classic"]` |
| Detail.ClassifyFrom | src/debug.py:136-151 | the elif chain picks the first prefix in table order that the label starts with, and nothing when it starts with none |
| Detail.PrefixOfPrefix | src/debug.py:136-151 | of two prefixes of one label, the shorter begins the longer |
| Detail.LabelPrefixesExclusive | src/debug.py:136-151 | a label starts with at most one of the seven prefixes |
| Detail.ClassifyExactly | src/debug.py:136-151 | a label is dispatched to a field exactly when it starts with that field's prefix |
| Detail.AuthorTexts | src/debug.py:137-138 | the `author_filter` comprehension raises KeyError `href` exactly when some anchor lacks `href`, and keeps no more names than there are anchors |
| Detail.IsAuthorLinkAt | src/debug.py:102-104 | `author_filter` accepts an href exactly when `/author` or `/search` occurs somewhere in it |
| Detail.AuthorLinkExamples | src/debug.py:102-104 | an author page and a search page pass the filter |
| Detail.BookLinkExample | src/debug.py:102-104 | a book page does not pass the filter |
| Detail.AuthorTextsFollow | src/debug.py:137-138 | when no href is missing, the names are the texts of exactly the anchors whose href passes `author_filter`, one per anchor, in document order |
| Detail.AuthorTextsFiltered | src/debug.py:137-138 | the same for a whole row of anchors |
| Detail.ReadRow | src/debug.py:134-151 | an unlabelled row reads nothing; author and translator rows, and only those, read names, which are the `author_filter`ed anchors' texts; publisher, subtitle, year and ISBN rows read `get_tail(element)` with default `''`, and a series row reads `get_text(element.getnext())`, each passing its exception through (an author or translator row raises exactly what `author_filter` over its anchors raises); the only exceptions are KeyError `href` and TypeError |
| Detail.ApplyRow | src/debug.py:134-151 | one pass of the loop body raises exactly when reading its row does, and only KeyError `href` or TypeError |
| Detail.ApplyRowGrows | src/debug.py:134-151 | one row never shortens the authors, the translators or the title |
| Detail.ApplyRows | src/debug.py:134-151 | the label loop raises only KeyError `href` or TypeError, and never drops an author, a translator or any part of the title stored before it |
| Detail.ReadRowRaises | src/debug.py:136-151 | reading one label row raises exactly when an author/translator anchor lacks `href`, a tail row has a blank tail and no next sibling, or a series row has no next sibling |
| Detail.ApplyRowContributors | src/debug.py:136-141 | an author row extends the authors and a translator row the translators by its filtered anchors' texts; every other row leaves both alone |
| Detail.ApplyRowTitle | src/debug.py:144-145 | a subtitle row appends `:` and its tail to the title; every other row leaves the title alone |
| Detail.ApplyRowScalars | src/debug.py:142-151 | a publisher, year, ISBN or series row sets that field to its text; every other row leaves the four fields alone |
| Detail.ApplyRowsRaisesRead | src/debug.py:134-151 | the label loop raises exactly when reading one of its rows raises |
| Detail.ApplyRowsRaises | src/debug.py:134-151 | the label loop raises exactly when one of its rows does |
| Detail.ApplyRowsContributors | src/debug.py:137-141 | authors and translators accumulate across rows in document order |
| Detail.ApplyRowsTitle | src/debug.py:144-145 | every subtitle row appends `:` and its tail to the title, in document order |
| Detail.ApplyRowsLastWins | src/debug.py:142-151 | publisher, year, ISBN and series take the value of their last row and keep their starting value when no row names them |
| Detail.CoverOf | src/debug.py:121-127 | no thumbnail anchor means no cover key; a missing href raises; the cover is `''` exactly when the href is empty or ends with `update_image`, else the href unchanged |
| Detail.Texts | src/debug.py:158 | one `get_text` per visible tag anchor, in document order |
| Detail.RecordUrl | src/debug.py:114-117 | the recorded URL is the first share anchor's `data-url`, or the given URL when there is no share anchor; the lookup raises KeyError exactly when that anchor lacks `data-url`, which the `//a[@data-url]` query rules out |
| Detail.ParseBook | src/debug.py:107-111 | an unparseable document gives no record; a successful parse always gives one |
| Detail.ParseBookRaises | src/debug.py:112-151 | for any given anchors, `parse_book` raises exactly when the first share anchor lacks `data-url`, the thumbnail anchor lacks `href`, or some label row raises |
| Detail.ParseBookRaisesSelected | src/debug.py:112-151 | on a page whose share anchors all carry `data-url`, as `//a[@data-url]` guarantees, `parse_book` raises exactly when the thumbnail anchor lacks `href` or some label row raises |
| Detail.ParseBookFields | src/debug.py:114-165 | the `data-url` overrides the URL; the id is the subject digits of the recorded URL; the cover follows the thumbnail rules; the rating text defaults to `'0'`; the description is the stripped last intro or `''`; the tags are the visible anchors' texts when any exist, else `get_tags`; the source is the fixed descriptor |
| Detail.ParseBookLabels | src/debug.py:130-151 | the title is the item title followed by every subtitle suffix; authors and translators are every filtered anchor of their rows in order; publisher defaults to `''`; year, ISBN and series are absent unless a row names them, and otherwise take the last such row |

## Left out

- HTTP and decoding (`urlopen`, `get_res_content`, gzip, charset decoding, `load_book`) are I/O. `LoadBookUrls` takes the response status and the parsed page's thumbnail anchors (None when the page does not parse) as parameters.
- `search_books` is left out because its substance is the thread pool. It returns the non-None records in completion order, but it raises instead when `load_book_urls_new` raises or when `future.result()` re-raises an exception from any worker (src/debug.py:181-188).
- The lxml parser and the XPath engine are a foreign library. Their results are the sequences in `Detail.Page` and the anchor sequence given to `Query.LoadBookUrls`. `None` from `etree.HTML` is `doc == None` in both `Detail.ParseBook` and `Query.LoadBookUrls`.
- `etree.tostring` is a foreign serialiser. The serialised intro markup is an input string, and only the final strip is modelled.
- `float()` and the division by 2 in `get_rating` are floating point. The record keeps the text handed to `float()`, which is `'0'` when there is no rating element.
- Detail.ParseBookRaises: `float()` raising ValueError on a rating text that is not a number (src/debug.py:99) is not among the exceptions it lists, because the rating is kept as text.
- Timing, `print` and the module-level smoke call are output only.
- Subject.SubjectId: `\d` accepts only the ASCII digits 0-9. Python's `\d` also accepts other Unicode decimal digits.
- Query.QueryOf: `urlsplit`'s ValueErrors are not modelled: the one for an unbalanced `[` or `]` in the network location, and the one its NFKC check raises for a non-ASCII network location whose normalised form holds `/`, `?`, `#`, `@` or `:`.
- `urlencode` in the search request (src/debug.py:63-64) only builds the outgoing URL, which is I/O.

=== FILE: detail.dfy ===
/** parse_book: assembling one book record from the detail page's XPath results. */
module Detail {
  import opened Wrappers
  import opened Text
  import opened Subject
  import opened Tree
  import opened Tags
  import opened Filter

  /** The fields a `pl` label row can fill. */
  datatype Field = Authors | Translators | Publisher | Subtitle | PublishedDate | Isbn | Series

  /** The label prefixes parse_book tests, in the order it tests them. */
  const LabelTable: seq<(string, Field)> := [
    ("作者", Authors),
    ("译者", Translators),
    ("出版社", Publisher),
    ("副标题", Subtitle),
    ("出版年", PublishedDate),
    ("ISBN", Isbn),
    ("丛书", Series)
  ]

  /** The field of the first table entry from `i` on whose prefix `text` starts with. */
  function ClassifyFrom(text: string, i: nat): (r: Option<Field>)
    requires i <= |LabelTable|
    ensures r.Some? ==> exists k :: i <= k < |LabelTable| && StartsWith(text, LabelTable[k].0) && r.value == LabelTable[k].1
                                 && forall m :: i <= m < k ==> !StartsWith(text, LabelTable[m].0)
    ensures r.None? ==> forall k :: i <= k < |LabelTable| ==> !StartsWith(text, LabelTable[k].0)
    decreases |LabelTable| - i
  {
    if i == |LabelTable| then None
    else if StartsWith(text, LabelTable[i].0) then Some(LabelTable[i].1)
    else ClassifyFrom(text, i + 1)
  }

  /** The if/elif chain over a label's text: the field of the first prefix it starts with. */
  function Classify(text: string): Option<Field> {
    ClassifyFrom(text, 0)
  }

  /** Two prefixes of one string: the shorter is a prefix of the longer. */
  lemma PrefixOfPrefix(text: string, a: string, b: string)
    requires StartsWith(text, a) && StartsWith(text, b) && |a| <= |b|
    ensures b[..|a|] == a
  {
    assert b[..|a|] == text[..|b|][..|a|];
  }

  /** No label prefix begins another one. */
  lemma PrefixesNotNested(i: nat, j: nat)
    requires i < |LabelTable| && j < |LabelTable| && i != j
    requires |LabelTable[i].0| <= |LabelTable[j].0|
    ensures LabelTable[j].0[..|LabelTable[i].0|] != LabelTable[i].0
  {
    var a, b := LabelTable[i].0, LabelTable[j].0;
    assert b[..|a|][0] == b[0] && b[..|a|][|a| - 1] == b[|a| - 1];
  }

  /** No label prefix is a prefix of another, so a label text starts with at most one of them. */
  lemma LabelPrefixesExclusive(text: string, i: nat, j: nat)
    requires i < |LabelTable| && j < |LabelTable|
    requires StartsWith(text, LabelTable[i].0) && StartsWith(text, LabelTable[j].0)
    ensures i == j
  {
    var a, b := LabelTable[i].0, LabelTable[j].0;
    if i != j {
      if |a| <= |b| {
        PrefixOfPrefix(text, a, b);
        PrefixesNotNested(i, j);
      } else {
        PrefixOfPrefix(text, b, a);
        PrefixesNotNested(j, i);
      }
    }
  }

  /** Because the prefixes are exclusive, the test order does not matter: a label
      is classified as a field exactly when it starts with that field's prefix. */
  lemma ClassifyExactly(text: string, k: nat)
    requires k < |LabelTable|
    ensures Classify(text) == Some(LabelTable[k].1) <==> StartsWith(text, LabelTable[k].0)
  {
    if StartsWith(text, LabelTable[k].0) {
      var r := Classify(text);
      var m :| 0 <= m < |LabelTable| && StartsWith(text, LabelTable[m].0) && r.value == LabelTable[m].1;
      LabelPrefixesExclusive(text, k, m);
    }
  }

  /** One `span.pl` label, with the anchors span.findall("..//a") returns for it. */
  datatype LabelRow = LabelRow(span: Node, rowAnchors: seq<Node>)

  /** What the detail page's XPath queries return. `introMarkup` holds the
      serialised markup of each `div.intro` under `#link-report`. */
  datatype Page = Page(
    itemReviewed: seq<Node>,  // //span[@property='v:itemreviewed']
    shareAnchors: seq<Node>,  // //a[@data-url]
    coverAnchors: seq<Node>,  // //a[@class='nbg']
    averages: seq<Node>,      // //strong[@property='v:average']
    labels: seq<LabelRow>,    // //span[@class='pl']
    introMarkup: seq<string>,
    tagAnchors: seq<Node>,    // //a[contains(@class, 'tag')]
    content: string)          // the raw document text

  /** The provider descriptor attached to every record. */
  datatype Source = Source(id: string, description: string, link: string)

  const DoubanSource: Source := Source("new_douban", "New Douban Books", "https://book.douban.com/")

  /** The book dict parse_book returns; an absent key is None. `ratingText` is the
      text get_rating hands to float(). */
  datatype BookRecord = BookRecord(
    title: string,
    url: string,
    id: Option<string>,
    cover: Option<string>,
    ratingText: string,
    authors: seq<string>,
    translators: seq<string>,
    publisher: string,
    publishedDate: Option<string>,
    isbn: Option<string>,
    series: Option<string>,
    description: string,
    tags: seq<string>,
    source: Source)

  /** author_filter on an href: the link points at an author or a search. */
  predicate IsAuthorLink(href: string) {
    Contains(href, "/author") || Contains(href, "/search")
  }

  /** author_filter looks for `/author` or `/search` anywhere in the href. */
  lemma IsAuthorLinkAt(href: string)
    ensures IsAuthorLink(href) <==> exists i :: OccursAt(href, "/author", i) || OccursAt(href, "/search", i)
  {
    ContainsAt(href, "/author");
    ContainsAt(href, "/search");
  }

  /** An author page and a search page pass the filter. */
  lemma AuthorLinkExamples()
    ensures IsAuthorLink("/author/4505117/")
    ensures IsAuthorLink("/search/x")
  {
    assert StartsWith("/author/4505117/", "/author");
    assert StartsWith("/search/x", "/search");
  }

  /** A book page does not pass the filter. */
  lemma BookLinkExample()
    ensures !IsAuthorLink("/subject/1/")
  {
    var b := "/subject/1/";
    IsAuthorLinkAt(b);
    forall i | 0 <= i && i + 7 <= |b|
      ensures !OccursAt(b, "/author", i) && !OccursAt(b, "/search", i)
    {
      assert b[i..i + 7][1] == b[i + 1] && b[i..i + 7][2] == b[i + 2];
    }
  }

  /** [get_text(a) for a in filter(author_filter, anchors)]; an anchor without
      href raises KeyError. */
  function AuthorTexts(anchors: seq<Node>): (r: Result<seq<string>>)
    ensures r.Raise? <==> exists k :: 0 <= k < |anchors| && "href" !in anchors[k].attrs
    ensures r.Raise? ==> r.exc == KeyError("href")
    ensures r.Ok? ==> |r.value| <= |anchors|
    decreases |anchors|
  {
    if |anchors| == 0 then Ok([])
    else
      var a := anchors[0];
      assert forall k :: 1 <= k < |anchors| ==> anchors[1..][k - 1] == anchors[k];
      if "href" !in a.attrs then Raise(KeyError("href"))
      else
        match AuthorTexts(anchors[1..])
        case Raise(e) => Raise(e)
        case Ok(rest) => Ok(if IsAuthorLink(a.attrs["href"]) then [NodeText(a, "")] + rest else rest)
  }

  /** An anchor author_filter keeps: it has an href that passes IsAuthorLink. */
  predicate IsAuthorAnchor(a: Node) {
    "href" in a.attrs && IsAuthorLink(a.attrs["href"])
  }

  /** AuthorTexts on the anchors from `from` on, one anchor at a time. */
  lemma AuthorTextsStep(anchors: seq<Node>, from: nat)
    requires from < |anchors| && "href" in anchors[from].attrs
    ensures AuthorTexts(anchors[from..]) ==
            match AuthorTexts(anchors[from + 1..])
            case Raise(e) => Raise(e)
            case Ok(rest) => Ok((if IsAuthorAnchor(anchors[from]) then [NodeText(anchors[from], "")] else []) + rest)
  {
    assert anchors[from..][0] == anchors[from] && anchors[from..][1..] == anchors[from + 1..];
    var r := AuthorTexts(anchors[from + 1..]);
    if r.Ok? {
      assert [] + r.value == r.value;
    }
  }

  /** When no href is missing, the author texts are the texts of exactly the anchors
      author_filter keeps, in document order. */
  lemma {:induction false} AuthorTextsFollow(anchors: seq<Node>, from: nat)
    requires from <= |anchors|
    ensures var r := AuthorTexts(anchors[from..]);
            var ix := KeptIndices(anchors, IsAuthorAnchor, from);
            r.Ok? ==> |r.value| == |ix| && forall k :: 0 <= k < |ix| ==> r.value[k] == NodeText(anchors[ix[k]], "")
    decreases |anchors| - from
  {
    if from < |anchors| && "href" in anchors[from].attrs {
      AuthorTextsFollow(anchors, from + 1);
      AuthorTextsStep(anchors, from);
    }
  }

  /** AuthorTextsFollow for a whole row of anchors. */
  lemma AuthorTextsFiltered(anchors: seq<Node>)
    ensures var r := AuthorTexts(anchors);
            var ix := KeptIndices(anchors, IsAuthorAnchor, 0);
            r.Ok? ==> |r.value| == |ix| && forall k :: 0 <= k < |ix| ==> r.value[k] == NodeText(anchors[ix[k]], "")
  {
    AuthorTextsFollow(anchors, 0);
    assert anchors[0..] == anchors;
  }

  /** The fields the label rows fill in. */
  datatype Fields = Fields(
    title: string,
    authors: seq<string>,
    translators: seq<string>,
    publisher: string,
    publishedDate: Option<string>,
    isbn: Option<string>,
    series: Option<string>)

  /** The field a label row fills, if any. */
  function RowField(row: LabelRow): Option<Field> {
    Classify(NodeText(row.span, ""))
  }

  /** What a publisher, subtitle, year or ISBN row reads: get_tail(element). */
  function RowTail(row: LabelRow): Result<string> {
    GetTail(row.span, "")
  }

  /** What a series row reads: get_text(element.getnext()). */
  function RowSeries(row: LabelRow): Result<string> {
    GetText(NextOf(row.span), "")
  }

  /** A text read, or the exception reading it raised, as a row reading. */
  function AsLine(t: Result<string>): Result<Reading> {
    match t
    case Raise(e) => Raise(e)
    case Ok(text) => Ok(Line(text))
  }

  /** The anchors' names, or the exception reading them raised, as a row reading. */
  function AsNames(t: Result<seq<string>>): Result<Reading> {
    match t
    case Raise(e) => Raise(e)
    case Ok(names) => Ok(Names(names))
  }

  /** What reading one label row yields: the filtered anchors' names of an author or
      translator row, or the text of any other row. */
  datatype Reading = Names(names: seq<string>) | Line(text: string)

  function NamesOf(v: Reading): seq<string> {
    if v.Names? then v.names else []
  }

  function LineOf(v: Reading): string {
    if v.Line? then v.text else ""
  }

  /** The reading half of the loop body: anchors for author and translator rows,
      the next sibling's text for a series row, the tail for the other labels. */
  function ReadRow(row: LabelRow): (r: Result<Reading>)
    ensures RowField(row).None? ==> r == Ok(Line(""))
    ensures r.Ok? ==> (r.value.Names? <==> RowField(row) == Some(Authors) || RowField(row) == Some(Translators))
    ensures r.Ok? && r.value.Names? ==> AuthorTexts(row.rowAnchors) == Ok(r.value.names)
    ensures r.Ok? && r.value.Line? ==> r.value.text == "" || Trimmed(r.value.text)
    ensures r.Raise? ==> r.exc == KeyError("href") || r.exc == TypeError
    ensures RowField(row) in {Some(Publisher), Some(Subtitle), Some(PublishedDate), Some(Isbn)} ==>
              r == AsLine(GetTail(row.span, ""))
    ensures RowField(row) == Some(Series) ==> r == AsLine(GetText(NextOf(row.span), ""))
    ensures RowField(row) in {Some(Authors), Some(Translators)} ==> r == AsNames(AuthorTexts(row.rowAnchors))
  {
    match RowField(row)
    case None => Ok(Line(""))
    case Some(Authors) =>
      (match AuthorTexts(row.rowAnchors)
       case Raise(e) => Raise(e)
       case Ok(ts) => Ok(Names(ts)))
    case Some(Translators) =>
      (match AuthorTexts(row.rowAnchors)
       case Raise(e) => Raise(e)
       case Ok(ts) => Ok(Names(ts)))
    case Some(Series) =>
      (match RowSeries(row)
       case Raise(e) => Raise(e)
       case Ok(t) => Ok(Line(t)))
    case Some(_) =>
      match RowTail(row)
      case Raise(e) => Raise(e)
      case Ok(t) => Ok(Line(t))
  }

  /** The storing half of the loop body: extend authors or translators, append
      `:` and the text to the title, or set the named field. */
  function Store(f: Fields, field: Option<Field>, v: Reading): Fields {
    match field
    case None => f
    case Some(Authors) => f.(authors := f.authors + NamesOf(v))
    case Some(Translators) => f.(translators := f.translators + NamesOf(v))
    case Some(Publisher) => f.(publisher := LineOf(v))
    case Some(Subtitle) => f.(title := f.title + ":" + LineOf(v))
    case Some(PublishedDate) => f.(publishedDate := Some(LineOf(v)))
    case Some(Isbn) => f.(isbn := Some(LineOf(v)))
    case Some(Series) => f.(series := Some(LineOf(v)))
  }

  /** One pass of the loop body over `elements`. */
  function ApplyRow(row: LabelRow, f: Fields): (r: Result<Fields>)
    ensures r.Raise? ==> r.exc == KeyError("href") || r.exc == TypeError
    ensures r.Raise? <==> ReadRow(row).Raise?
  {
    match ReadRow(row)
    case Raise(e) => Raise(e)
    case Ok(v) => Ok(Store(f, RowField(row), v))
  }

  /** The loop over all label rows in document order; the first exception aborts it. */
  function ApplyRows(rows: seq<LabelRow>, f: Fields): (r: Result<Fields>)
    ensures r.Raise? ==> r.exc == KeyError("href") || r.exc == TypeError
    ensures r.Ok? ==> Grows(f, r.value)
    decreases |rows|
  {
    if |rows| == 0 then Ok(f)
    else
      match ApplyRow(rows[0], f)
      case Raise(e) => Raise(e)
      case Ok(g) =>
        ApplyRowGrows(rows[0], f);
        var r := ApplyRows(rows[1..], g);
        assert r.Ok? ==> Grows(g, r.value);
        GrowsTransitive(f, g, r);
        r
  }

  /** The loop never drops what earlier rows stored: authors, translators and the
      title only ever get longer. */
  ghost predicate Grows(f: Fields, g: Fields) {
    f.authors <= g.authors && f.translators <= g.translators && f.title <= g.title
  }

  lemma GrowsTransitive(f: Fields, g: Fields, r: Result<Fields>)
    requires Grows(f, g) && (r.Ok? ==> Grows(g, r.value))
    ensures r.Ok? ==> Grows(f, r.value)
  {
    if r.Ok? {
      var h := r.value;
      assert f.authors == g.authors[..|f.authors|] && g.authors == h.authors[..|g.authors|];
      assert f.translators == g.translators[..|f.translators|] && g.translators == h.translators[..|g.translators|];
      assert f.title == g.title[..|f.title|] && g.title == h.title[..|g.title|];
    }
  }

  /** One row keeps what earlier rows stored. */
  lemma ApplyRowGrows(row: LabelRow, f: Fields)
    requires ApplyRow(row, f).Ok?
    ensures Grows(f, ApplyRow(row, f).value)
  {
    ApplyRowContributors(row, f);
    ApplyRowTitle(row, f);
  }

  /** The text a tail or series row reads, "" when reading it raises. */
  function RowValue(row: LabelRow): string {
    match ReadRow(row)
    case Ok(v) => LineOf(v)
    case Raise(_) => ""
  }

  /** The names an author or translator row reads, none when reading it raises. */
  function RowNames(row: LabelRow): seq<string> {
    match ReadRow(row)
    case Ok(v) => NamesOf(v)
    case Raise(_) => []
  }

  /** Reading a row raises: an anchor without href in an author or translator row,
      a blank tail with no next sibling in a tail row, no next sibling in a series row. */
  ghost predicate RowFails(row: LabelRow) {
    match RowField(row)
    case None => false
    case Some(Authors) => exists k :: 0 <= k < |row.rowAnchors| && "href" !in row.rowAnchors[k].attrs
    case Some(Translators) => exists k :: 0 <= k < |row.rowAnchors| && "href" !in row.rowAnchors[k].attrs
    case Some(Series) => row.span.next.None?
    case Some(_) => row.span.tail != "" && Blank(row.span.tail) && row.span.next.None?
  }

  /** Reading a row raises exactly when RowFails says so. */
  lemma ReadRowRaises(row: LabelRow)
    ensures ReadRow(row).Raise? <==> RowFails(row)
  {
    match RowField(row)
    case None =>
    case Some(Authors) =>
      assert ReadRow(row).Raise? <==> AuthorTexts(row.rowAnchors).Raise?;
    case Some(Translators) =>
      assert ReadRow(row).Raise? <==> AuthorTexts(row.rowAnchors).Raise?;
    case Some(Series) =>
      assert ReadRow(row).Raise? <==> RowSeries(row).Raise?;
    case Some(_) =>
      assert ReadRow(row).Raise? <==> RowTail(row).Raise?;
  }

  /** Storing extends authors or translators by the names read. */
  lemma StoreContributors(f: Fields, field: Option<Field>, v: Reading)
    ensures Store(f, field, v).authors == f.authors + (if field == Some(Authors) then NamesOf(v) else [])
    ensures Store(f, field, v).translators == f.translators + (if field == Some(Translators) then NamesOf(v) else [])
  {
    assert f.authors + [] == f.authors && f.translators + [] == f.translators;
  }

  /** Storing a subtitle appends `:` and the text to the title. */
  lemma StoreTitle(f: Fields, field: Option<Field>, v: Reading)
    ensures Store(f, field, v).title == f.title + (if field == Some(Subtitle) then ":" + LineOf(v) else "")
  {
    assert f.title + ":" + LineOf(v) == f.title + (":" + LineOf(v));
    assert f.title + "" == f.title;
  }

  /** Storing sets the publisher, year, ISBN or series named and keeps the others. */
  lemma StoreScalars(f: Fields, field: Option<Field>, v: Reading)
    ensures var g := Store(f, field, v);
            && g.publisher == (if field == Some(Publisher) then LineOf(v) else f.publisher)
            && g.publishedDate == (if field == Some(PublishedDate) then Some(LineOf(v)) else f.publishedDate)
            && g.isbn == (if field == Some(Isbn) then Some(LineOf(v)) else f.isbn)
            && g.series == (if field == Some(Series) then Some(LineOf(v)) else f.series)
  {
  }

  /** One row extends authors or translators by its filtered anchors' names. */
  lemma ApplyRowContributors(row: LabelRow, f: Fields)
    requires ApplyRow(row, f).Ok?
    ensures var g := ApplyRow(row, f).value;
            var field := RowField(row);
            && g.authors == f.authors + (if field == Some(Authors) then RowNames(row) else [])
            && g.translators == f.translators + (if field == Some(Translators) then RowNames(row) else [])
  {
    StoreContributors(f, RowField(row), ReadRow(row).value);
  }

  /** One subtitle row appends `:` and its text to the title; other rows keep it. */
  lemma ApplyRowTitle(row: LabelRow, f: Fields)
    requires ApplyRow(row, f).Ok?
    ensures ApplyRow(row, f).value.title ==
            f.title + (if RowField(row) == Some(Subtitle) then ":" + RowValue(row) else "")
  {
    StoreTitle(f, RowField(row), ReadRow(row).value);
  }

  /** One row sets the publisher, year, ISBN or series it names and keeps the others. */
  lemma ApplyRowScalars(row: LabelRow, f: Fields)
    requires ApplyRow(row, f).Ok?
    ensures var g := ApplyRow(row, f).value;
            var field := RowField(row);
            && g.publisher == (if field == Some(Publisher) then RowValue(row) else f.publisher)
            && g.publishedDate == (if field == Some(PublishedDate) then Some(RowValue(row)) else f.publishedDate)
            && g.isbn == (if field == Some(Isbn) then Some(RowValue(row)) else f.isbn)
            && g.series == (if field == Some(Series) then Some(RowValue(row)) else f.series)
  {
    StoreScalars(f, RowField(row), ReadRow(row).value);
  }

  /** Reference: the author (or translator) names of all rows of that field, in document order. */
  ghost function ContributorTexts(rows: seq<LabelRow>, field: Field): seq<string>
    decreases |rows|
  {
    if |rows| == 0 then []
    else
      var here := if RowField(rows[0]) == Some(field) then RowNames(rows[0]) else [];
      here + ContributorTexts(rows[1..], field)
  }

  /** Reference: the `:subtitle` suffixes of all subtitle rows, in document order. */
  ghost function SubtitleSuffix(rows: seq<LabelRow>): string
    decreases |rows|
  {
    if |rows| == 0 then ""
    else
      var here := if RowField(rows[0]) == Some(Subtitle) then ":" + RowValue(rows[0]) else "";
      here + SubtitleSuffix(rows[1..])
  }

  /** Reference: the value of the last row of `field`, None when no row has that field. */
  ghost function LastRowValue(rows: seq<LabelRow>, field: Field): Option<string>
    decreases |rows|
  {
    if |rows| == 0 then None
    else
      match LastRowValue(rows[1..], field)
      case Some(v) => Some(v)
      case None => if RowField(rows[0]) == Some(field) then Some(RowValue(rows[0])) else None
  }

  /** `v` when some row had the field, `start` otherwise. */
  function Latest(v: Option<string>, start: string): string {
    match v
    case Some(t) => t
    case None => start
  }

  /** The loop raises exactly when reading one of its rows does. */
  lemma {:induction false} ApplyRowsRaisesRead(rows: seq<LabelRow>, f: Fields)
    ensures ApplyRows(rows, f).Raise? <==> exists k :: 0 <= k < |rows| && ReadRow(rows[k]).Raise?
    decreases |rows|
  {
    if |rows| > 0 {
      if ReadRow(rows[0]).Ok? {
        var g := ApplyRow(rows[0], f).value;
        assert ApplyRows(rows, f) == ApplyRows(rows[1..], g);
        ApplyRowsRaisesRead(rows[1..], g);
        assert forall k :: 1 <= k < |rows| ==> rows[1..][k - 1] == rows[k];
      } else {
        assert ApplyRows(rows, f).Raise?;
      }
    }
  }

  /** The loop raises exactly when one of its rows does. */
  lemma ApplyRowsRaises(rows: seq<LabelRow>, f: Fields)
    ensures ApplyRows(rows, f).Raise? <==> exists k :: 0 <= k < |rows| && RowFails(rows[k])
  {
    ApplyRowsRaisesRead(rows, f);
    forall k | 0 <= k < |rows|
      ensures ReadRow(rows[k]).Raise? <==> RowFails(rows[k])
    {
      ReadRowRaises(rows[k]);
    }
  }

  lemma AppendAssoc<T>(a: seq<T>, b: seq<T>, c: seq<T>)
    ensures (a + b) + c == a + (b + c)
  {
  }

  /** Authors and translators accumulate across rows, in document order. */
  lemma {:induction false} ApplyRowsContributors(rows: seq<LabelRow>, f: Fields)
    requires ApplyRows(rows, f).Ok?
    ensures ApplyRows(rows, f).value.authors == f.authors + ContributorTexts(rows, Authors)
    ensures ApplyRows(rows, f).value.translators == f.translators + ContributorTexts(rows, Translators)
    decreases |rows|
  {
    if |rows| > 0 {
      var g := ApplyRow(rows[0], f).value;
      ApplyRowContributors(rows[0], f);
      ApplyRowsContributors(rows[1..], g);
      var ha := if RowField(rows[0]) == Some(Authors) then RowNames(rows[0]) else [];
      var ht := if RowField(rows[0]) == Some(Translators) then RowNames(rows[0]) else [];
      assert ContributorTexts(rows, Authors) == ha + ContributorTexts(rows[1..], Authors);
      assert ContributorTexts(rows, Translators) == ht + ContributorTexts(rows[1..], Translators);
      AppendAssoc(f.authors, ha, ContributorTexts(rows[1..], Authors));
      AppendAssoc(f.translators, ht, ContributorTexts(rows[1..], Translators));
    }
  }

  /** Each subtitle row appends `:` and its text to the title. */
  lemma {:induction false} ApplyRowsTitle(rows: seq<LabelRow>, f: Fields)
    requires ApplyRows(rows, f).Ok?
    ensures ApplyRows(rows, f).value.title == f.title + SubtitleSuffix(rows)
    decreases |rows|
  {
    if |rows| > 0 {
      var g := ApplyRow(rows[0], f).value;
      ApplyRowTitle(rows[0], f);
      ApplyRowsTitle(rows[1..], g);
      var h := if RowField(rows[0]) == Some(Subtitle) then ":" + RowValue(rows[0]) else "";
      assert SubtitleSuffix(rows) == h + SubtitleSuffix(rows[1..]);
      AppendAssoc(f.title, h, SubtitleSuffix(rows[1..]));
    }
  }

  /** Publisher, publication year, ISBN and series take the value of their last
      row, and keep their starting value when no row names them. */
  lemma {:induction false} ApplyRowsLastWins(rows: seq<LabelRow>, f: Fields)
    requires ApplyRows(rows, f).Ok?
    ensures var g := ApplyRows(rows, f).value;
            && g.publisher == Latest(LastRowValue(rows, Publisher), f.publisher)
            && g.publishedDate == (if LastRowValue(rows, PublishedDate).Some? then LastRowValue(rows, PublishedDate) else f.publishedDate)
            && g.isbn == (if LastRowValue(rows, Isbn).Some? then LastRowValue(rows, Isbn) else f.isbn)
            && g.series == (if LastRowValue(rows, Series).Some? then LastRowValue(rows, Series) else f.series)
    decreases |rows|
  {
    if |rows| > 0 {
      var g := ApplyRow(rows[0], f).value;
      ApplyRowScalars(rows[0], f);
      ApplyRowsLastWins(rows[1..], g);
    }
  }

  /** The cover key: absent without a thumbnail anchor, '' for an empty or
      placeholder href, the href itself otherwise. */
  function CoverOf(anchors: seq<Node>): (r: Result<Option<string>>)
    ensures |anchors| == 0 <==> r == Ok(None)
    ensures |anchors| > 0 ==> (r.Raise? <==> "href" !in anchors[0].attrs)
    ensures r.Ok? && r.value.Some? ==>
              var href := anchors[0].attrs["href"];
              (r.value.value == "" <==> href == "" || EndsWith(href, "update_image")) &&
              (r.value.value != "" ==> r.value.value == href)
  {
    if |anchors| == 0 then Ok(None)
    else
      match Attr(anchors[0], "href")
      case Raise(e) => Raise(e)
      case Ok(cover) =>
        if cover == "" || EndsWith(cover, "update_image") then Ok(Some("")) else Ok(Some(cover))
  }

  /** get_text of every anchor, in document order. */
  function Texts(nodes: seq<Node>): (r: seq<string>)
    ensures |r| == |nodes|
    ensures forall k :: 0 <= k < |r| ==> r[k] == NodeText(nodes[k], "")
  {
    seq(|nodes|, k requires 0 <= k < |nodes| => NodeText(nodes[k], ""))
  }

  /** parse_book(url, book_content), given the parsed document or None when lxml
      could not parse it. */
  function ParseBook(url: string, doc: Option<Page>): (r: Result<Option<BookRecord>>)
    ensures doc.None? ==> r == Ok(None)
    ensures doc.Some? && r.Ok? ==> r.value.Some?
  {
    match doc
    case None => Ok(None)
    case Some(page) =>
      var title := ListText(page.itemReviewed, "");
      match RecordUrl(url, page)
      case Raise(e) => Raise(e)
      case Ok(bookUrl) =>
        match CoverOf(page.coverAnchors)
        case Raise(e) => Raise(e)
        case Ok(cover) =>
          var start := Fields(title, [], [], "", None, None, None);
          match ApplyRows(page.labels, start)
          case Raise(e) => Raise(e)
          case Ok(f) =>
            var description := if |page.introMarkup| > 0 then Strip(page.introMarkup[|page.introMarkup| - 1]) else "";
            var tags := if |page.tagAnchors| > 0 then Texts(page.tagAnchors) else GetTags(page.content);
            Ok(Some(BookRecord(
              f.title, bookUrl, SubjectId(bookUrl), cover, ListText(page.averages, "0"),
              f.authors, f.translators, f.publisher, f.publishedDate, f.isbn, f.series,
              description, tags, DoubanSource)))
  }

  /** The URL parse_book records: the first share anchor's data-url (the XPath only
      selects anchors that carry one), else the URL it was called with. */
  function RecordUrl(url: string, page: Page): (r: Result<string>)
    ensures Selected(page) ==> r.Ok?
    ensures r.Raise? <==> |page.shareAnchors| > 0 && "data-url" !in page.shareAnchors[0].attrs
    ensures r.Ok? && |page.shareAnchors| == 0 ==> r.value == url
    ensures r.Ok? && |page.shareAnchors| > 0 ==> r.value == page.shareAnchors[0].attrs["data-url"]
  {
    if |page.shareAnchors| > 0 then Attr(page.shareAnchors[0], "data-url") else Ok(url)
  }

  /** What the XPath query `//a[@data-url]` guarantees: every share anchor it returns
      carries `data-url`. */
  ghost predicate Selected(page: Page) {
    forall k :: 0 <= k < |page.shareAnchors| ==> "data-url" in page.shareAnchors[k].attrs
  }

  /** None of the conditions under which parse_book raises holds. */
  ghost predicate Parseable(page: Page) {
    && (|page.shareAnchors| > 0 ==> "data-url" in page.shareAnchors[0].attrs)
    && (|page.coverAnchors| > 0 ==> "href" in page.coverAnchors[0].attrs)
    && (forall k :: 0 <= k < |page.labels| ==> !RowFails(page.labels[k]))
  }

  /** parse_book raises exactly when a share anchor lacks data-url, the cover anchor
      lacks href, or some label row raises. */
  lemma ParseBookRaises(url: string, page: Page)
    ensures ParseBook(url, Some(page)).Raise? <==>
              (|page.shareAnchors| > 0 && "data-url" !in page.shareAnchors[0].attrs) ||
              (|page.coverAnchors| > 0 && "href" !in page.coverAnchors[0].attrs) ||
              (exists k :: 0 <= k < |page.labels| && RowFails(page.labels[k]))
  {
    var start := Fields(ListText(page.itemReviewed, ""), [], [], "", None, None, None);
    ApplyRowsRaises(page.labels, start);
  }

  /** On a page the XPath queries could return, the `data-url` lookup cannot fail, so
      parse_book raises exactly when the cover anchor lacks href or some label row raises. */
  lemma ParseBookRaisesSelected(url: string, page: Page)
    requires Selected(page)
    ensures ParseBook(url, Some(page)).Raise? <==>
              (|page.coverAnchors| > 0 && "href" !in page.coverAnchors[0].attrs) ||
              (exists k :: 0 <= k < |page.labels| && RowFails(page.labels[k]))
  {
    ParseBookRaises(url, page);
    assert |page.shareAnchors| > 0 ==> "data-url" in page.shareAnchors[0].attrs;
  }

  /** The record's URL, id, cover, rating text, description, tags and source. */
  lemma ParseBookFields(url: string, page: Page)
    requires Parseable(page)
    ensures ParseBook(url, Some(page)).Ok?
    ensures var b := ParseBook(url, Some(page)).value.value;
            && (|page.shareAnchors| == 0 ==> b.url == url)
            && (|page.shareAnchors| > 0 ==> b.url == page.shareAnchors[0].attrs["data-url"])
            && b.id == SubjectId(b.url)
            && (b.cover.None? <==> |page.coverAnchors| == 0)
            && (b.cover.Some? ==> b.cover == CoverOf(page.coverAnchors).value)
            && b.ratingText == ListText(page.averages, "0")
            && Trimmed(b.description)
            && (|page.introMarkup| == 0 ==> b.description == "")
            && (|page.introMarkup| > 0 ==> b.description == Strip(page.introMarkup[|page.introMarkup| - 1]))
            && (|page.tagAnchors| > 0 ==> |b.tags| == |page.tagAnchors|)
            && (|page.tagAnchors| > 0 ==> forall k :: 0 <= k < |b.tags| ==> b.tags[k] == NodeText(page.tagAnchors[k], ""))
            && (|page.tagAnchors| == 0 ==> b.tags == GetTags(page.content))
            && b.source == DoubanSource
  {
    ParseBookRaises(url, page);
  }

  /** The label-row fields of the record, against the row-by-row references. */
  lemma ParseBookLabels(url: string, page: Page)
    requires Parseable(page)
    ensures ParseBook(url, Some(page)).Ok?
    ensures var b := ParseBook(url, Some(page)).value.value;
            && b.title == ListText(page.itemReviewed, "") + SubtitleSuffix(page.labels)
            && b.authors == ContributorTexts(page.labels, Authors)
            && b.translators == ContributorTexts(page.labels, Translators)
            && b.publisher == Latest(LastRowValue(page.labels, Publisher), "")
            && b.publishedDate == LastRowValue(page.labels, PublishedDate)
            && b.isbn == LastRowValue(page.labels, Isbn)
            && b.series == LastRowValue(page.labels, Series)
  {
    ParseBookRaises(url, page);
    var start := Fields(ListText(page.itemReviewed, ""), [], [], "", None, None, None);
    ApplyRowsContributors(page.labels, start);
    ApplyRowsTitle(page.labels, start);
    ApplyRowsLastWins(page.labels, start);
    assert [] + ContributorTexts(page.labels, Authors) == ContributorTexts(page.labels, Authors);
    assert [] + ContributorTexts(page.labels, Translators) == ContributorTexts(page.labels, Translators);
  }
}

=== FILE: filter.dfy ===
/** Python's filter(keep, xs) described by positions: which elements it lets through. */
module Filter {

  /** The indices from `from` on whose elements `keep` accepts, in increasing order. */
  ghost function KeptIndices<T>(xs: seq<T>, keep: T -> bool, from: nat): (ix: seq<nat>)
    requires from <= |xs|
    ensures forall k :: 0 <= k < |ix| ==> from <= ix[k] < |xs|
    decreases |xs| - from
  {
    if from == |xs| then []
    else if keep(xs[from]) then [from] + KeptIndices(xs, keep, from + 1)
    else KeptIndices(xs, keep, from + 1)
  }

  /** Every kept index points at an element `keep` accepts. */
  lemma {:induction false} KeptIndicesKept<T>(xs: seq<T>, keep: T -> bool, from: nat, k: nat)
    requires from <= |xs| && k < |KeptIndices(xs, keep, from)|
    ensures keep(xs[KeptIndices(xs, keep, from)[k]])
    decreases |xs| - from
  {
    var ix, jx := KeptIndices(xs, keep, from), KeptIndices(xs, keep, from + 1);
    if keep(xs[from]) {
      assert ix == [from] + jx;
      if k > 0 {
        KeptIndicesKept(xs, keep, from + 1, k - 1);
      }
    } else {
      KeptIndicesKept(xs, keep, from + 1, k);
    }
  }

  /** The kept indices increase, so the filter keeps the order of `xs`. */
  lemma {:induction false} KeptIndicesIncreasing<T>(xs: seq<T>, keep: T -> bool, from: nat, k: nat, l: nat)
    requires from <= |xs| && k < l < |KeptIndices(xs, keep, from)|
    ensures KeptIndices(xs, keep, from)[k] < KeptIndices(xs, keep, from)[l]
    decreases |xs| - from
  {
    var ix, jx := KeptIndices(xs, keep, from), KeptIndices(xs, keep, from + 1);
    if keep(xs[from]) {
      assert ix == [from] + jx;
      if k > 0 {
        KeptIndicesIncreasing(xs, keep, from + 1, k - 1, l - 1);
      }
    } else {
      KeptIndicesIncreasing(xs, keep, from + 1, k, l);
    }
  }

  /** Every element `keep` accepts has its index kept. */
  lemma {:induction false} KeptIndicesComplete<T>(xs: seq<T>, keep: T -> bool, from: nat)
    requires from <= |xs|
    ensures var ix := KeptIndices(xs, keep, from);
            forall i :: from <= i < |xs| && keep(xs[i]) ==> i in ix
    decreases |xs| - from
  {
    if from < |xs| {
      KeptIndicesComplete(xs, keep, from + 1);
      var ix, jx := KeptIndices(xs, keep, from), KeptIndices(xs, keep, from + 1);
      if keep(xs[from]) {
        assert ix == [from] + jx;
        assert forall i :: i in jx ==> i in ix;
      }
    }
  }
}

=== FILE: percent.dfy ===
/** Percent-decoding as urllib.parse.unquote does it (encoding 'utf-8', errors 'replace'),
    and the quoting it inverts. */
module Percent {
  import opened Utf8

  predicate IsAscii(c: char) {
    c as int < 0x80
  }

  ghost predicate AllAscii(s: string) {
    forall i :: 0 <= i < |s| ==> IsAscii(s[i])
  }

  predicate IsHexDigit(c: char) {
    ('0' <= c <= '9') || ('a' <= c <= 'f') || ('A' <= c <= 'F')
  }

  function HexValue(c: char): (v: nat)
    requires IsHexDigit(c)
    ensures v < 16
  {
    if '0' <= c <= '9' then c as int - '0' as int
    else if 'a' <= c <= 'f' then c as int - 'a' as int + 10
    else c as int - 'A' as int + 10
  }

  const HexDigits: string := "0123456789ABCDEF"

  /** urllib.parse.unquote_to_bytes on an ASCII string: `%` followed by two hex
      digits (either case) is one byte; any other `%` stays a literal `%`. */
  function UnquoteToBytes(s: string): (bs: seq<Byte>)
    requires AllAscii(s)
    ensures |bs| <= |s|
    decreases |s|
  {
    if |s| == 0 then []
    else if s[0] == '%' && |s| >= 3 && IsHexDigit(s[1]) && IsHexDigit(s[2]) then
      [HexValue(s[1]) * 16 + HexValue(s[2])] + UnquoteToBytes(s[3..])
    else
      [s[0] as int] + UnquoteToBytes(s[1..])
  }

  /** The length of the longest ASCII prefix of `s`. */
  function AsciiRun(s: string): (k: nat)
    ensures k <= |s|
    ensures AllAscii(s[..k])
    ensures k < |s| ==> !IsAscii(s[k])
    decreases |s|
  {
    if |s| == 0 || !IsAscii(s[0]) then 0
    else
      var k := AsciiRun(s[1..]);
      assert s[..k + 1] == [s[0]] + s[1..][..k];
      k + 1
  }

  /** Each maximal ASCII run is percent-decoded and read as UTF-8 on its own;
      non-ASCII characters are copied through. */
  function DecodeRuns(s: string): (r: string)
    ensures |r| <= |s|
    decreases |s|
  {
    if |s| == 0 then ""
    else if !IsAscii(s[0]) then [s[0]] + DecodeRuns(s[1..])
    else
      var k := AsciiRun(s);
      Decode(UnquoteToBytes(s[..k])) + DecodeRuns(s[k..])
  }

  /** A `%` not followed by two hex digits is kept as a literal `%` byte. */
  lemma UnquoteLonePercent(rest: string)
    requires AllAscii(rest)
    requires |rest| < 2 || !IsHexDigit(rest[0]) || !IsHexDigit(rest[1])
    ensures AllAscii("%" + rest)
    ensures UnquoteToBytes("%" + rest) == ['%' as int] + UnquoteToBytes(rest)
  {
    assert ("%" + rest)[1..] == rest;
  }

  /** Hex digits are read in either case. */
  lemma UnquoteEitherCase()
    ensures UnquoteToBytes("%e9") == UnquoteToBytes("%E9") == [0xE9]
  {
    assert "%e9"[3..] == [] && "%E9"[3..] == [];
  }

  /** Any ASCII character but `%` is one byte of its own code. */
  lemma UnquoteLiteral(c: char, rest: string)
    requires IsAscii(c) && c != '%' && AllAscii(rest)
    ensures AllAscii([c] + rest)
    ensures UnquoteToBytes([c] + rest) == [c as int] + UnquoteToBytes(rest)
  {
    assert ([c] + rest)[1..] == rest;
  }

  /** `%` and two hex digits are the one byte the digits spell, high digit first. */
  lemma UnquoteEscape(h1: char, h2: char, rest: string)
    requires IsHexDigit(h1) && IsHexDigit(h2) && AllAscii(rest)
    ensures AllAscii(['%', h1, h2] + rest)
    ensures UnquoteToBytes(['%', h1, h2] + rest) == [HexValue(h1) * 16 + HexValue(h2)] + UnquoteToBytes(rest)
  {
    assert (['%', h1, h2] + rest)[3..] == rest;
  }

  /** The ASCII run at the front of `a + [c] + b`, for a non-ASCII `c`, is the one at
      the front of `a`. */
  lemma {:induction false} AsciiRunStops(a: string, c: char, b: string)
    requires !IsAscii(c)
    ensures AsciiRun(a + [c] + b) == AsciiRun(a)
    decreases |a|
  {
    var s := a + [c] + b;
    if |a| == 0 {
      assert s[0] == c;
    } else {
      assert s[0] == a[0];
      if IsAscii(a[0]) {
        assert s[1..] == a[1..] + [c] + b;
        AsciiRunStops(a[1..], c, b);
      }
    }
  }

  /** A non-ASCII character is copied through and ends the ASCII run before it, so
      the text on each side of it is decoded on its own. */
  lemma {:induction false} DecodeRunsAround(a: string, c: char, b: string)
    requires !IsAscii(c)
    ensures DecodeRuns(a + [c] + b) == DecodeRuns(a) + [c] + DecodeRuns(b)
    decreases |a|, 1
  {
    if |a| == 0 {
      assert a + [c] + b == [c] + b;
      assert ([c] + b)[1..] == b;
    } else if !IsAscii(a[0]) {
      CopiedAround(a, c, b);
    } else {
      RunAround(a, c, b);
    }
  }

  /** DecodeRunsAround when `a` starts with a non-ASCII character. */
  lemma {:induction false} CopiedAround(a: string, c: char, b: string)
    requires !IsAscii(c) && |a| > 0 && !IsAscii(a[0])
    ensures DecodeRuns(a + [c] + b) == DecodeRuns(a) + [c] + DecodeRuns(b)
    decreases |a|, 0
  {
    var s := a + [c] + b;
    assert s[0] == a[0] && s[1..] == a[1..] + [c] + b;
    DecodeRunsAround(a[1..], c, b);
    Reassociate([a[0]], DecodeRuns(a[1..]), c, DecodeRuns(b));
  }

  /** DecodeRunsAround when `a` starts with an ASCII run. */
  lemma {:induction false} RunAround(a: string, c: char, b: string)
    requires !IsAscii(c) && |a| > 0 && IsAscii(a[0])
    ensures DecodeRuns(a + [c] + b) == DecodeRuns(a) + [c] + DecodeRuns(b)
    decreases |a|, 0
  {
    var s := a + [c] + b;
    var k := AsciiRun(a);
    AsciiRunStops(a, c, b);
    SplitAround(a, c, b, k);
    var pre, rest := a[..k], a[k..] + [c] + b;
    DecodeRunsFront(s, k, pre, rest);
    DecodeRunsFront(a, k, pre, a[k..]);
    DecodeRunsAround(a[k..], c, b);
    Reassociate(Decode(UnquoteToBytes(pre)), DecodeRuns(a[k..]), c, DecodeRuns(b));
  }

  /** One step of DecodeRuns over a leading ASCII run `pre` of length `k`. */
  lemma DecodeRunsFront(s: string, k: nat, pre: string, post: string)
    requires |s| > 0 && IsAscii(s[0]) && k == AsciiRun(s) && pre == s[..k] && post == s[k..]
    ensures AllAscii(pre)
    ensures DecodeRuns(s) == Decode(UnquoteToBytes(pre)) + DecodeRuns(post)
  {
  }

  lemma SplitAround(a: string, c: char, b: string, k: nat)
    requires 0 < k <= |a|
    ensures (a + [c] + b)[0] == a[0]
    ensures (a + [c] + b)[..k] == a[..k] && (a + [c] + b)[k..] == a[k..] + [c] + b
  {
  }

  lemma Reassociate(x: string, y: string, c: char, z: string)
    ensures x + (y + [c] + z) == x + y + [c] + z
  {
  }

  /** urllib.parse.unquote(s). */
  function Unquote(s: string): (r: string)
    ensures |r| <= |s|
    ensures '%' !in s ==> r == s
  {
    if '%' !in s then s else DecodeRuns(s)
  }

  /** An escape of a byte that opens no UTF-8 sequence becomes U+FFFD. */
  lemma UnquoteInvalidByte()
    ensures Unquote("%FF") == [Replacement]
  {
    UnquoteEscape('F', 'F', "");
    assert "%FF" == ['%', 'F', 'F'] + "";
    UnquoteAscii("%FF");
    DecodeInvalidLead(0xFF, []);
  }

  /** An escaped UTF-8 sequence cut short becomes one U+FFFD. */
  lemma UnquoteTruncated()
    ensures Unquote("%E2%80") == [Replacement]
  {
    UnquoteEscape('8', '0', "");
    assert "%80" == ['%', '8', '0'] + "";
    UnquoteEscape('E', '2', "%80");
    assert "%E2%80" == ['%', 'E', '2'] + "%80";
    assert [0xE2] + [0x80] == [0xE2, 0x80];
    assert UnquoteToBytes("%E2%80") == [0xE2, 0x80];
    UnquoteAscii("%E2%80");
    DecodeReplacementExamples();
  }

  /** Characters urllib.parse.quote never escapes. */
  predicate IsUnreserved(c: char) {
    ('A' <= c <= 'Z') || ('a' <= c <= 'z') || ('0' <= c <= '9') || c == '_' || c == '.' || c == '-' || c == '~'
  }

  /** What quoting may write: unreserved characters, `%` and upper-case hex digits. */
  predicate IsQuoteChar(c: char) {
    IsUnreserved(c) || c == '%'
  }

  /** One byte as urllib.parse.quote(..., safe='') writes it: itself when it is an
      unreserved ASCII character, `%XX` with upper-case hex digits otherwise. */
  function QuoteByte(b: Byte): (s: string)
    ensures 0 < |s| && AllAscii(s)
    ensures forall k :: 0 <= k < |s| ==> IsQuoteChar(s[k])
  {
    if b < 0x80 && IsUnreserved(b as char) then [b as char]
    else
      HexDigitValue(b / 16);
      HexDigitValue(b % 16);
      ['%', HexDigits[b / 16], HexDigits[b % 16]]
  }

  /** Bytes written as urllib.parse.quote(..., safe='') writes them. */
  function QuoteBytes(bs: seq<Byte>): (s: string)
    ensures AllAscii(s)
    ensures forall k :: 0 <= k < |s| ==> IsQuoteChar(s[k])
    decreases |bs|
  {
    if |bs| == 0 then ""
    else
      var h, t := QuoteByte(bs[0]), QuoteBytes(bs[1..]);
      assert forall k :: 0 <= k < |h + t| ==> (h + t)[k] == if k < |h| then h[k] else t[k - |h|];
      h + t
  }

  /** Quoted text holds none of the characters that delimit a URL or its query. */
  lemma QuoteHasNoDelimiters(s: string)
    ensures var q := Quote(s);
            '=' !in q && '&' !in q && '#' !in q && '?' !in q && '\t' !in q && '\r' !in q && '\n' !in q
  {
    var q := Quote(s);
    assert forall k :: 0 <= k < |q| ==> IsQuoteChar(q[k]);
  }

  /** urllib.parse.quote(s, safe=''). */
  function Quote(s: string): string {
    QuoteBytes(EncodeString(s))
  }

  lemma HexDigitValue(v: nat)
    requires v < 16
    ensures IsHexDigit(HexDigits[v]) && IsUnreserved(HexDigits[v]) && HexValue(HexDigits[v]) == v
  {
  }

  /** unquote_to_bytes reads one quoted byte back, whatever ASCII text follows. */
  lemma UnquoteQuoteByte(b: Byte, rest: string)
    requires AllAscii(rest)
    ensures AllAscii(QuoteByte(b) + rest)
    ensures UnquoteToBytes(QuoteByte(b) + rest) == [b] + UnquoteToBytes(rest)
  {
    var h := QuoteByte(b);
    var q := h + rest;
    assert AllAscii(q) by {
      assert forall k :: 0 <= k < |q| ==> q[k] == if k < |h| then h[k] else rest[k - |h|];
    }
    if b < 0x80 && IsUnreserved(b as char) {
      assert q[0] == b as char && q[1..] == rest;
    } else {
      HexDigitValue(b / 16);
      HexDigitValue(b % 16);
      assert q[0] == '%' && q[1] == h[1] && q[2] == h[2] && q[3..] == rest;
      assert HexValue(q[1]) * 16 + HexValue(q[2]) == b;
    }
  }

  /** unquote_to_bytes reads back the bytes quoting wrote. */
  lemma {:induction false} UnquoteQuoteBytes(bs: seq<Byte>)
    ensures UnquoteToBytes(QuoteBytes(bs)) == bs
    decreases |bs|
  {
    if |bs| > 0 {
      UnquoteQuoteBytes(bs[1..]);
      UnquoteQuoteByte(bs[0], QuoteBytes(bs[1..]));
      assert [bs[0]] + bs[1..] == bs;
    }
  }

  /** ASCII text without `%` is read back byte for byte and decodes to itself. */
  lemma {:induction false} DecodePlainAscii(s: string)
    requires AllAscii(s) && '%' !in s
    ensures Decode(UnquoteToBytes(s)) == s
    decreases |s|
  {
    if |s| > 0 {
      DecodePlainAscii(s[1..]);
      assert [s[0]] + s[1..] == s;
    }
  }

  /** On ASCII input unquote is a single percent-decoding followed by one UTF-8 decoding. */
  lemma UnquoteAscii(s: string)
    requires AllAscii(s)
    ensures Unquote(s) == Decode(UnquoteToBytes(s))
  {
    if '%' !in s {
      DecodePlainAscii(s);
    } else {
      assert AsciiRun(s) == |s|;
      assert s[..|s|] == s;
    }
  }

  /** Round trip: unquote(quote(s, safe='')) == s for every string. */
  lemma UnquoteQuote(s: string)
    ensures Unquote(Quote(s)) == s
  {
    UnquoteAscii(Quote(s));
    UnquoteQuoteBytes(EncodeString(s));
    DecodeEncode(s);
  }
}

=== FILE: query.dfy ===
/** Unwrapping the search page's redirect links (calc_url) and collecting the
    candidate detail pages (load_book_urls_new). */
module Query {
  import opened Wrappers
  import opened Text
  import opened Percent
  import opened Subject
  import opened Tree

  /** The most candidates a search keeps. */
  const MaxCandidates: nat := 100

  predicate IsUnsafe(c: char) {
    c == '\t' || c == '\r' || c == '\n'
  }

  /** No character urlsplit would delete. */
  ghost predicate Safe(s: string) {
    forall k :: 0 <= k < |s| ==> !IsUnsafe(s[k])
  }

  lemma SafeConcat(a: string, b: string)
    requires Safe(a) && Safe(b)
    ensures Safe(a + b)
  {
    forall k | 0 <= k < |a + b|
      ensures !IsUnsafe((a + b)[k])
    {
      if k >= |a| {
        assert (a + b)[k] == b[k - |a|];
      }
    }
  }

  /** urlsplit deletes tab, CR and LF anywhere in the URL before splitting it. */
  function RemoveUnsafe(s: string): (r: string)
    ensures |r| <= |s|
    ensures Safe(r)
    ensures Safe(s) ==> r == s
    decreases |s|
  {
    if |s| == 0 then s
    else if IsUnsafe(s[0]) then RemoveUnsafe(s[1..])
    else
      assert [s[0]] + s[1..] == s;
      [s[0]] + RemoveUnsafe(s[1..])
  }

  /** Deleting the unsafe characters works piece by piece. */
  lemma {:induction false} RemoveUnsafeConcat(a: string, b: string)
    ensures RemoveUnsafe(a + b) == RemoveUnsafe(a) + RemoveUnsafe(b)
    decreases |a|
  {
    if |a| == 0 {
      assert a + b == b;
    } else {
      assert (a + b)[0] == a[0] && (a + b)[1..] == a[1..] + b;
      RemoveUnsafeConcat(a[1..], b);
      if !IsUnsafe(a[0]) {
        var ra, rb := RemoveUnsafe(a[1..]), RemoveUnsafe(b);
        assert [a[0]] + (ra + rb) == ([a[0]] + ra) + rb;
      }
    }
  }

  /** Each character is judged on its own, wherever it stands: tab, CR and LF go, every
      other character stays. */
  lemma RemoveUnsafeAt(a: string, c: char, b: string)
    ensures RemoveUnsafe(a + [c] + b) == RemoveUnsafe(a) + (if IsUnsafe(c) then [] else [c]) + RemoveUnsafe(b)
  {
    RemoveUnsafeConcat(a + [c], b);
    RemoveUnsafeConcat(a, [c]);
    assert [c][1..] == [];
  }

  /** urlparse(href).query: the fragment starts at the first `#`, and the query is
      whatever lies between the first `?` before it and the fragment. */
  function QueryOf(href: string): (q: string)
    ensures '#' !in q && Safe(q)
  {
    var h := RemoveUnsafe(href);
    var beforeFragment := h[..Find(h, '#')];
    var i := Find(beforeFragment, '?');
    if i < |beforeFragment| then beforeFragment[i + 1..] else ""
  }

  /** Tab, CR and LF count for nothing, wherever they stand in the address. */
  lemma QueryOfIgnoresUnsafe(a: string, c: char, b: string)
    requires IsUnsafe(c)
    ensures QueryOf(a + [c] + b) == QueryOf(a + b)
  {
    RemoveUnsafeSkips(a, c, b);
  }

  lemma RemoveUnsafeSkips(a: string, c: char, b: string)
    requires IsUnsafe(c)
    ensures RemoveUnsafe(a + [c] + b) == RemoveUnsafe(a + b)
  {
    RemoveUnsafeAt(a, c, b);
    RemoveUnsafeConcat(a, b);
    assert RemoveUnsafe(a) + [] + RemoveUnsafe(b) == RemoveUnsafe(a) + RemoveUnsafe(b);
  }

  /** An address without `?` before its fragment has an empty query. */
  lemma QueryOfNoQuestion(base: string, fragment: string)
    requires '?' !in base && '#' !in base
    requires Safe(base) && Safe(fragment)
    ensures QueryOf(base) == ""
    ensures QueryOf(base + "#" + fragment) == ""
  {
    assert base[..Find(base, '#')] == base;
    var h := base + "#" + fragment;
    SafeConcat(base, "#");
    SafeConcat(base + "#", fragment);
    assert RemoveUnsafe(h) == h;
    FindAfter(base, '#', fragment);
    assert h[..|base|] == base;
  }

  /** Building `base?query` and parsing it gives the query back. */
  lemma QueryOfBuilt(base: string, query: string)
    requires '?' !in base && '#' !in base && '#' !in query
    requires Safe(base) && Safe(query)
    ensures QueryOf(base + "?" + query) == query
  {
    var h := base + "?" + query;
    SafeConcat(base, "?");
    SafeConcat(base + "?", query);
    assert RemoveUnsafe(h) == h;
    assert '#' !in h;
    assert h[..Find(h, '#')] == h;
    FindAfter(base, '?', query);
    assert h[|base| + 1..] == query;
  }

  /** A fragment after the query is not part of it. */
  lemma QueryOfBuiltWithFragment(base: string, query: string, fragment: string)
    requires '?' !in base && '#' !in base && '#' !in query
    requires Safe(base) && Safe(query) && Safe(fragment)
    ensures QueryOf(base + "?" + query + "#" + fragment) == query
  {
    var b := base + "?" + query;
    var h := b + "#" + fragment;
    SafeConcat(base, "?");
    SafeConcat(base + "?", query);
    SafeConcat(b, "#");
    SafeConcat(b + "#", fragment);
    assert RemoveUnsafe(h) == h;
    assert '#' !in b;
    FindAfter(b, '#', fragment);
    assert h[..|b|] == b;
    FindAfter(base, '?', query);
    assert b[|base| + 1..] == query;
  }

  /** The key of a query item: the text before its first `=`. */
  function ItemKey(item: string): string {
    item[..Find(item, '=')]
  }

  /** The value of a query item: the text between its first and second `=`. */
  function ItemValue(item: string): string
    requires '=' in item
  {
    var rest := item[Find(item, '=') + 1..];
    rest[..Find(rest, '=')]
  }

  ghost predicate AllHaveEquals(items: seq<string>) {
    forall k :: 0 <= k < |items| ==> '=' in items[k]
  }

  /** The value of the last item whose key is `key`: the one a dict built from the
      items in order keeps. */
  function LastValue(items: seq<string>, key: string): (r: Option<string>)
    requires AllHaveEquals(items)
    ensures r.None? <==> forall k :: 0 <= k < |items| ==> ItemKey(items[k]) != key
    decreases |items|
  {
    if |items| == 0 then None
    else
      match LastValue(items[1..], key)
      case Some(v) => Some(v)
      case None =>
        assert forall k :: 1 <= k < |items| ==> items[1..][k - 1] == items[k];
        if ItemKey(items[0]) == key then Some(ItemValue(items[0])) else None
  }

  /** The dict comprehension {item.split('=')[0]: item.split('=')[1] for item in items},
      started from `params`: an item without `=` raises IndexError. */
  function AddParams(params: map<string, string>, items: seq<string>): (r: Result<map<string, string>>)
    ensures r.Raise? ==> r.exc == IndexError
    ensures r.Ok? ==> params.Keys <= r.value.Keys
    ensures |items| == 0 ==> r == Ok(params)
    decreases |items|
  {
    if |items| == 0 then Ok(params)
    else
      var parts := Split(items[0], '=');
      if |parts| < 2 then Raise(IndexError)
      else AddParams(params[parts[0] := parts[1]], items[1..])
  }

  /** `split('=')[0]` and `split('=')[1]` are the item's key and value. */
  lemma SplitItem(item: string)
    requires '=' in item
    ensures |Split(item, '=')| >= 2
    ensures Split(item, '=')[0] == ItemKey(item)
    ensures Split(item, '=')[1] == ItemValue(item)
  {
    SplitHead(item, '=');
    SplitSecond(item, '=');
  }

  /** The comprehension raises exactly when some item lacks `=`; otherwise every key
      maps to the value of its last occurrence, and keys not among the items keep
      their earlier value. */
  lemma {:induction false} AddParamsLastWins(params: map<string, string>, items: seq<string>)
    ensures AddParams(params, items).Raise? <==> !AllHaveEquals(items)
    ensures AddParams(params, items).Raise? ==> AddParams(params, items).exc == IndexError
    ensures AllHaveEquals(items) ==>
              forall key :: match LastValue(items, key)
                            case Some(v) => key in AddParams(params, items).value && AddParams(params, items).value[key] == v
                            case None => (key in AddParams(params, items).value <==> key in params) &&
                                         (key in params ==> AddParams(params, items).value[key] == params[key])
    decreases |items|
  {
    if |items| > 0 {
      var parts := Split(items[0], '=');
      SplitHead(items[0], '=');
      if |parts| >= 2 {
        SplitItem(items[0]);
        AddParamsLastWins(params[parts[0] := parts[1]], items[1..]);
        assert forall k :: 1 <= k < |items| ==> items[1..][k - 1] == items[k];
        assert AllHaveEquals(items[1..]) ==> AllHaveEquals(items) by {
          assert forall k :: 1 <= k < |items| ==> items[k] == items[1..][k - 1];
        }
      } else {
        assert '=' !in items[0];
      }
    }
  }

  /** calc_url(href): percent-decodes the `url` parameter of the link's query and
      keeps it only when it is a detail-page address. */
  function CalcUrl(href: string): (r: Result<Option<string>>)
    ensures r.Ok? && r.value.Some? ==> IsSubjectUrl(r.value.value)
  {
    var items := Split(QueryOf(href), '&');
    match AddParams(map[], items)
    case Raise(e) => Raise(e)
    case Ok(params) =>
      if "url" !in params then Raise(KeyError("url"))
      else
        var url := Unquote(params["url"]);
        if IsSubjectUrl(url) then Ok(Some(url)) else Ok(None)
  }

  /** What calc_url returns, stated over the query items: a query item without `=`
      raises IndexError, a missing `url` parameter raises KeyError, and otherwise
      the last `url` value, percent-decoded, comes back exactly when it is a
      detail-page address. */
  lemma CalcUrlSpec(href: string)
    ensures var items := Split(QueryOf(href), '&');
            !AllHaveEquals(items) ==> CalcUrl(href) == Raise(IndexError)
    ensures var items := Split(QueryOf(href), '&');
            AllHaveEquals(items) ==>
              CalcUrl(href) == match LastValue(items, "url")
                               case None => Raise(KeyError("url"))
                               case Some(v) => if IsSubjectUrl(Unquote(v)) then Ok(Some(Unquote(v))) else Ok(None)
  {
    AddParamsLastWins(map[], Split(QueryOf(href), '&'));
  }

  /** `url=<quoted u>` is one well-formed query item with key `url` and value `<quoted u>`. */
  lemma QuotedUrlItem(u: string)
    ensures var item := "url=" + Quote(u);
            '#' !in item && '&' !in item && Safe(item) && '=' in item &&
            ItemKey(item) == "url" && ItemValue(item) == Quote(u)
  {
    var q := Quote(u);
    QuoteHasNoDelimiters(u);
    assert Safe(q);
    UrlItem(q);
  }

  /** `url=` followed by text free of delimiters is one item with key `url` and that text as value. */
  lemma UrlItem(q: string)
    requires '#' !in q && '&' !in q && '=' !in q && Safe(q)
    ensures var item := "url=" + q;
            '#' !in item && '&' !in item && Safe(item) && '=' in item &&
            ItemKey(item) == "url" && ItemValue(item) == q
  {
    var item := "url=" + q;
    SafeConcat("url=", q);
    FindAfter("url", '=', q);
    assert item[4..] == q;
    assert q[..|q|] == q;
  }

  /** The query of `base?url=<quoted u>` is the single item `url=<quoted u>`. */
  lemma RedirectItems(base: string, u: string)
    requires '?' !in base && '#' !in base && Safe(base)
    ensures var q := Quote(u);
            var items := Split(QueryOf(base + "?url=" + q), '&');
            AllHaveEquals(items) && LastValue(items, "url") == Some(q)
  {
    QuoteHasNoDelimiters(u);
    assert Safe(Quote(u));
    UrlQuery(base, Quote(u));
  }

  /** The query of `base?url=<q>`, for `q` free of delimiters, is the single item `url=<q>`. */
  lemma UrlQuery(base: string, q: string)
    requires '?' !in base && '#' !in base && Safe(base)
    requires '#' !in q && '&' !in q && '=' !in q && Safe(q)
    ensures var items := Split(QueryOf(base + "?url=" + q), '&');
            AllHaveEquals(items) && LastValue(items, "url") == Some(q)
  {
    var item := "url=" + q;
    UrlItem(q);
    assert base + "?url=" + q == base + "?" + item by {
      assert "?url=" == "?" + "url=";
    }
    SingleItemQuery(base, item);
    SingleItemLastValue(item, "url");
  }

  /** A single item holding `=` gives its key its value. */
  lemma SingleItemLastValue(item: string, key: string)
    requires '=' in item && ItemKey(item) == key
    ensures AllHaveEquals([item]) && LastValue([item], key) == Some(ItemValue(item))
  {
    assert [item][1..] == [];
  }

  /** The query of `base?item`, for an item free of `&` and `#`, splits into that one item. */
  lemma SingleItemQuery(base: string, item: string)
    requires '?' !in base && '#' !in base && Safe(base)
    requires '#' !in item && '&' !in item && Safe(item)
    ensures Split(QueryOf(base + "?" + item), '&') == [item]
  {
    QueryOfBuilt(base, item);
    SplitNoSeparator(item, '&');
  }

  /** A redirect link that carries a detail-page address as its quoted `url`
      parameter unwraps to that address. */
  lemma CalcUrlOfRedirect(base: string, u: string)
    requires '?' !in base && '#' !in base && Safe(base)
    requires IsSubjectUrl(u)
    ensures CalcUrl(base + "?url=" + Quote(u)) == Ok(Some(u))
  {
    RedirectItems(base, u);
    CalcUrlSpec(base + "?url=" + Quote(u));
    UnquoteQuote(u);
  }

  /** calc_url(link.attrib['href']) for one search-result anchor. */
  function Unwrap(link: Node): (r: Result<Option<string>>)
    ensures "href" !in link.attrs ==> r == Raise(KeyError("href"))
    ensures "href" in link.attrs ==> r == CalcUrl(link.attrs["href"])
    ensures r.Ok? && r.value.Some? ==> IsSubjectUrl(r.value.value)
  {
    match Attr(link, "href")
    case Raise(e) => Raise(e)
    case Ok(href) => CalcUrl(href)
  }

  /** `prefix` in front of the addresses the rest of the page yields, or the rest's exception. */
  function Prepend(prefix: seq<string>, r: Result<seq<string>>): Result<seq<string>> {
    match r
    case Ok(xs) => Ok(prefix + xs)
    case Raise(e) => Raise(e)
  }

  /** Every accepted address of the anchors in page order, or the first exception raised. */
  function Accepted(links: seq<Node>): (r: Result<seq<string>>)
    ensures r.Ok? ==> forall k :: 0 <= k < |r.value| ==> IsSubjectUrl(r.value[k])
    ensures r.Ok? ==> |r.value| <= |links|
    decreases |links|
  {
    if |links| == 0 then Ok([])
    else
      match Unwrap(links[0])
      case Raise(e) => Raise(e)
      case Ok(None) => Accepted(links[1..])
      case Ok(Some(u)) =>
        var rest := Accepted(links[1..]);
        PrependSubject(u, rest);
        Prepend([u], rest)
  }

  /** A subject address in front of subject addresses. */
  lemma PrependSubject(u: string, rest: Result<seq<string>>)
    requires IsSubjectUrl(u)
    requires rest.Ok? ==> forall k :: 0 <= k < |rest.value| ==> IsSubjectUrl(rest.value[k])
    ensures var r := Prepend([u], rest);
            r.Ok? ==> |r.value| == |rest.value| + 1 && forall k :: 0 <= k < |r.value| ==> IsSubjectUrl(r.value[k])
  {
    if rest.Ok? {
      PrependAll(u, rest.value, IsSubjectUrl);
    }
  }

  lemma PrependAll<T>(u: T, xs: seq<T>, p: T -> bool)
    requires p(u) && forall k :: 0 <= k < |xs| ==> p(xs[k])
    ensures forall k :: 0 <= k < |[u] + xs| ==> p(([u] + xs)[k])
  {
    forall k | 0 <= k < |[u] + xs|
      ensures p(([u] + xs)[k])
    {
      if k > 0 {
        assert ([u] + xs)[k] == xs[k - 1];
      }
    }
  }

  /** The first `n` items of `xs`, or all of them when there are fewer. */
  function Take<T>(xs: seq<T>, n: nat): (r: seq<T>)
    ensures |r| <= n && r <= xs
    ensures |xs| <= n ==> r == xs
  {
    if |xs| <= n then xs else xs[..n]
  }

  lemma PrependTwice(a: seq<string>, b: seq<string>, r: Result<seq<string>>)
    ensures Prepend(a, Prepend(b, r)) == Prepend(a + b, r)
  {
    if r.Ok? {
      assert a + (b + r.value) == (a + b) + r.value;
    }
  }

  lemma TakeSnoc<T>(xs: seq<T>, u: T, n: nat)
    ensures Take(xs + [u], n) == if |xs| < n then Take(xs, n) + [u] else Take(xs, n)
  {
    if |xs| >= n {
      assert (xs + [u])[..n] == xs[..n];
    }
  }

  /** One anchor of the scan: its exception, nothing, or its address in front of the rest. */
  lemma AcceptedStep(links: seq<Node>, i: nat)
    requires i < |links|
    ensures Accepted(links[i..]) == match Unwrap(links[i])
                                    case Raise(e) => Raise(e)
                                    case Ok(None) => Accepted(links[i + 1..])
                                    case Ok(Some(u)) => Prepend([u], Accepted(links[i + 1..]))
  {
    assert links[i..][1..] == links[i + 1..];
    assert links[i..][0] == links[i];
  }

  /** An anchor that raises ends the scan with its exception. */
  lemma ScanRaise(links: seq<Node>, i: nat, seen: seq<string>)
    requires i < |links| && Unwrap(links[i]).Raise?
    requires Accepted(links) == Prepend(seen, Accepted(links[i..]))
    ensures Accepted(links) == Raise(Unwrap(links[i]).exc)
  {
    AcceptedStep(links, i);
  }

  /** An anchor with an accepted address adds it to the addresses seen. */
  lemma ScanKeep(links: seq<Node>, i: nat, seen: seq<string>, u: string)
    requires i < |links| && Unwrap(links[i]) == Ok(Some(u))
    requires Accepted(links) == Prepend(seen, Accepted(links[i..]))
    ensures Accepted(links) == Prepend(seen + [u], Accepted(links[i + 1..]))
  {
    AcceptedStep(links, i);
    PrependTwice(seen, [u], Accepted(links[i + 1..]));
  }

  /** An anchor without an accepted address changes nothing. */
  lemma ScanSkip(links: seq<Node>, i: nat, seen: seq<string>)
    requires i < |links| && Unwrap(links[i]) == Ok(None)
    requires Accepted(links) == Prepend(seen, Accepted(links[i..]))
    ensures Accepted(links) == Prepend(seen, Accepted(links[i + 1..]))
  {
    AcceptedStep(links, i);
  }

  /** After the last anchor the addresses seen are all of them. */
  lemma PrependNothing(seen: seq<string>)
    ensures Prepend(seen, Ok([])) == Ok(seen)
  {
    assert seen + [] == seen;
  }

  /** Capping keeps only subject addresses when there were only subject addresses. */
  lemma TakeSubjects(xs: seq<string>, n: nat)
    requires forall k :: 0 <= k < |xs| ==> IsSubjectUrl(xs[k])
    ensures forall k :: 0 <= k < |Take(xs, n)| ==> IsSubjectUrl(Take(xs, n)[k])
  {
    TakeAll(xs, n, IsSubjectUrl);
  }

  lemma TakeAll<T>(xs: seq<T>, n: nat, p: T -> bool)
    requires forall k :: 0 <= k < |xs| ==> p(xs[k])
    ensures forall k :: 0 <= k < |Take(xs, n)| ==> p(Take(xs, n)[k])
  {
    var t := Take(xs, n);
    forall k | 0 <= k < |t|
      ensures p(t[k])
    {
      assert t[k] == xs[k];
    }
  }

  /** The scan before the first anchor and after the last one. */
  lemma AcceptedBounds(links: seq<Node>)
    ensures Accepted(links) == Prepend([], Accepted(links[0..]))
    ensures Accepted(links[|links|..]) == Ok([])
  {
    assert links[0..] == links;
    assert links[|links|..] == [];
    if Accepted(links).Ok? {
      assert [] + Accepted(links).value == Accepted(links).value;
    }
  }

  /** The cap is reached exactly when enough addresses have been seen. */
  lemma TakeBelowCap<T>(xs: seq<T>, n: nat)
    ensures |Take(xs, n)| < n <==> |xs| < n
  {
  }

  /** The accumulate-and-cap loop of load_book_urls_new once the search page has
      been fetched: nothing on a status other than 200 or 201; AttributeError when
      the page does not parse (`doc == None`: html.xpath on None); otherwise the first
      100 accepted addresses in page order. The scan runs over every anchor even
      after the cap is reached, so a malformed href anywhere still raises. */
  method LoadBookUrls(status: int, doc: Option<seq<Node>>) returns (r: Result<seq<string>>)
    ensures status != 200 && status != 201 ==> r == Ok([])
    ensures (status == 200 || status == 201) && doc.None? ==> r == Raise(AttributeError)
    ensures (status == 200 || status == 201) && doc.Some? && Accepted(doc.value).Raise? ==> r == Accepted(doc.value)
    ensures (status == 200 || status == 201) && doc.Some? && Accepted(doc.value).Ok? ==>
              r == Ok(Take(Accepted(doc.value).value, MaxCandidates))
    ensures r.Ok? ==> |r.value| <= MaxCandidates
    ensures r.Ok? ==> forall k :: 0 <= k < |r.value| ==> IsSubjectUrl(r.value[k])
  {
    if status != 200 && status != 201 {
      return Ok([]);
    }
    if doc.None? {
      return Raise(AttributeError);
    }
    var links := doc.value;
    var bookUrls: seq<string> := [];
    ghost var seen: seq<string> := [];
    var i := 0;
    AcceptedBounds(links);
    while i < |links|
      invariant 0 <= i <= |links|
      invariant Accepted(links) == Prepend(seen, Accepted(links[i..]))
      invariant bookUrls == Take(seen, MaxCandidates)
    {
      var parsed := Unwrap(links[i]);
      if parsed.Raise? {
        ScanRaise(links, i, seen);
        return Raise(parsed.exc);
      }
      if parsed.value.Some? {
        var u := parsed.value.value;
        ScanKeep(links, i, seen, u);
        TakeSnoc(seen, u, MaxCandidates);
        TakeBelowCap(seen, MaxCandidates);
        if |bookUrls| < MaxCandidates {
          bookUrls := bookUrls + [u];
        }
        seen := seen + [u];
      } else {
        ScanSkip(links, i, seen);
      }
      i := i + 1;
    }
    PrependNothing(seen);
    TakeSubjects(seen, MaxCandidates);
    return Ok(bookUrls);
  }
}

=== FILE: subject.dfy ===
// The detail-page recogniser: re.match with the pattern `.*/subject/(\d+)/?`.
module Subject {
  import opened Wrappers
  import opened Text

  const Marker: string := "/subject/"

  /** The canonical detail-page address for a subject id (DOUBAN_BOOK_URL). */
  function BookUrl(id: string): string {
    "https://book.douban.com" + Marker + id + "/"
  }

  predicate IsDigit(c: char) {
    '0' <= c <= '9'
  }

  ghost predicate AllDigits(s: string) {
    forall k :: 0 <= k < |s| ==> IsDigit(s[k])
  }

  /** The literal part of the pattern, followed by a digit, starts at index `i`. */
  predicate SubjectAt(s: string, i: int) {
    0 <= i && i + |Marker| < |s| && s[i..i + |Marker|] == Marker && IsDigit(s[i + |Marker|])
  }

  /** The largest index `i <= hi` with SubjectAt(s, i): where the greedy `.*` stops. */
  function LastSubjectAt(s: string, hi: int): (r: Option<nat>)
    ensures r.Some? ==> r.value <= hi && SubjectAt(s, r.value)
    ensures r.Some? ==> forall j :: r.value < j <= hi ==> !SubjectAt(s, j)
    ensures r.None? ==> forall j :: 0 <= j <= hi ==> !SubjectAt(s, j)
    decreases hi + 1
  {
    if hi < 0 then None
    else if SubjectAt(s, hi) then Some(hi)
    else LastSubjectAt(s, hi - 1)
  }

  /** The length of the run of digits `s` starts with. */
  function DigitRun(s: string): (k: nat)
    ensures k <= |s|
    ensures AllDigits(s[..k])
    ensures k < |s| ==> !IsDigit(s[k])
    decreases |s|
  {
    if |s| == 0 || !IsDigit(s[0]) then 0
    else
      var k := DigitRun(s[1..]);
      assert s[..k + 1] == [s[0]] + s[1..][..k];
      k + 1
  }

  /** The greedy `.*` on the first line ends at index `i`: a marker followed by a digit
      starts there and none starts later on that line. */
  ghost predicate LastOnFirstLine(url: string, i: int) {
    i <= Find(url, '\n') && SubjectAt(url, i)
    && forall j :: i < j <= Find(url, '\n') ==> !SubjectAt(url, j)
  }

  /** `d` is the whole run of digits of `s` that starts at index `start`. */
  ghost predicate DigitsAt(s: string, start: nat, d: string) {
    start + |d| <= |s| && s[start..start + |d|] == d && AllDigits(d)
    && (start + |d| == |s| || !IsDigit(s[start + |d|]))
  }

  // group(1) of re.match(".*/subject/(\d+)/?", url), None when there is no match.
  // `.*` stops at the first line break and is greedy, so the digits come from the
  // last marker on the first line that a digit follows.
  function SubjectId(url: string): (r: Option<string>)
    ensures r.Some? <==> exists i :: 0 <= i <= Find(url, '\n') && SubjectAt(url, i)
    ensures r.Some? ==> |r.value| >= 1 && AllDigits(r.value)
    ensures r.Some? ==> exists i :: LastOnFirstLine(url, i) && DigitsAt(url, i + |Marker|, r.value)
  {
    match LastSubjectAt(url, Find(url, '\n'))
    case None => None
    case Some(i) =>
      var start := i + |Marker|;
      var k := DigitRun(url[start..]);
      assert url[start..][..k] == url[start..start + k];
      assert k < |url[start..]| ==> url[start..][k] == url[start + k];
      assert LastOnFirstLine(url, i) && DigitsAt(url, start, url[start..][..k]);
      Some(url[start..][..k])
  }

  /** The pattern matches: DOUBAN_BOOK_URL_PATTERN.match(url) is not None. */
  predicate IsSubjectUrl(url: string) {
    SubjectId(url).Some?
  }

  lemma {:induction false} DigitRunOf(d: string, rest: string)
    requires AllDigits(d)
    requires rest == [] || !IsDigit(rest[0])
    ensures DigitRun(d + rest) == |d|
    decreases |d|
  {
    if |d| > 0 {
      DigitRunOf(d[1..], rest);
      assert (d + rest)[1..] == d[1..] + rest;
    }
  }

  /** No marker starts inside the id or the closing slash of a canonical address. */
  lemma NoSubjectAfterHost(id: string)
    requires AllDigits(id)
    ensures forall j :: 23 < j ==> !SubjectAt(BookUrl(id), j)
  {
    var s := BookUrl(id);
    assert s[23..32] == Marker;
    assert s[32..|s| - 1] == id;
    forall j | 23 < j
      ensures !SubjectAt(s, j)
    {
      if j + |Marker| < |s| {
        if j < 31 {
          assert s[j] == Marker[j - 23];
          assert s[j..j + |Marker|][0] != Marker[0];
        } else {
          assert s[j + 1] == id[j + 1 - 32];
          assert s[j..j + |Marker|][1] != Marker[1];
        }
      }
    }
  }

  lemma NoLineBreak(id: string)
    requires AllDigits(id)
    ensures Find(BookUrl(id), '\n') == |BookUrl(id)|
  {
    var s := BookUrl(id);
    assert s == "https://book.douban.com/subject/" + id + "/";
    assert '\n' !in id;
  }

  /** Formatting an id into the canonical address and matching it gives the id back. */
  lemma SubjectIdOfBookUrl(id: string)
    requires |id| >= 1 && AllDigits(id)
    ensures SubjectId(BookUrl(id)) == Some(id)
  {
    var s := BookUrl(id);
    NoLineBreak(id);
    NoSubjectAfterHost(id);
    assert s[23..32] == Marker;
    assert s[32..] == id + "/";
    assert SubjectAt(s, 23);
    assert LastSubjectAt(s, |s|) == Some(23);
    DigitRunOf(id, "/");
    assert s[32..][..|id|] == id;
  }
}

=== FILE: tags.dfy ===
/** get_tags: the fallback that reads tags out of the tracking script's
    `criteria = '...'` assignment when the page shows no tag links. */
module Tags {
  import opened Wrappers
  import opened Text
  import opened Filter

  /** The literal text the pattern `criteria = '(.+)'` opens with. */
  const CriteriaOpen: string := "criteria = '"

  /** The marker a tag segment starts with. */
  const TagMarker: string := "7:"

  /** The pattern matches with its opening at `p` and its closing quote at `j`:
      the captured text s[p + 12..j] is non-empty and, since `.` does not match a
      line break, holds no line break. */
  ghost predicate IsMatch(s: string, p: int, j: int) {
    && 0 <= p
    && p + |CriteriaOpen| < j < |s|
    && StartsWith(s[p..], CriteriaOpen)
    && s[j] == '\''
    && '\n' !in s[p + |CriteriaOpen|..j]
  }

  /** No opening before `p0` can be closed. */
  ghost predicate NoMatchBefore(s: string, p0: int) {
    forall p, j :: p < p0 ==> !IsMatch(s, p, j)
  }

  /** The opening at `p0` cannot be closed after `j0`. */
  ghost predicate NoMatchAfter(s: string, p0: int, j0: int) {
    forall j :: j0 < j ==> !IsMatch(s, p0, j)
  }

  /** The index of the last quote in s[lo..hi], if any. */
  function LastQuote(s: string, lo: nat, hi: nat): (r: Option<nat>)
    requires lo <= hi <= |s|
    ensures r.Some? ==> lo <= r.value < hi && s[r.value] == '\''
    ensures r.Some? ==> forall j :: r.value < j < hi ==> s[j] != '\''
    ensures r.None? ==> forall j :: lo <= j < hi ==> s[j] != '\''
    decreases hi - lo
  {
    if lo == hi then None
    else if s[hi - 1] == '\'' then Some(hi - 1)
    else LastQuote(s, lo, hi - 1)
  }

  /** From `q`, the text stays on one line exactly up to the first line break. */
  lemma LineFacts(s: string, q: nat)
    requires q <= |s|
    ensures var lineEnd := q + Find(s[q..], '\n');
            lineEnd <= |s| &&
            (forall j :: q <= j <= lineEnd ==> '\n' !in s[q..j]) &&
            (forall j :: lineEnd < j <= |s| ==> '\n' in s[q..j])
  {
    var lineEnd := q + Find(s[q..], '\n');
    forall j | q <= j <= lineEnd
      ensures '\n' !in s[q..j]
    {
      assert s[q..j] == s[q..][..Find(s[q..], '\n')][..j - q];
    }
    forall j | lineEnd < j <= |s|
      ensures '\n' in s[q..j]
    {
      assert s[q..j][lineEnd - q] == s[q..][Find(s[q..], '\n')];
    }
  }

  /** Past `lo`, an opening at `p` cannot close when no quote lies between `lo`
      and the end of the opening's line. */
  lemma NoCloseFrom(s: string, p: nat, lo: nat)
    requires p + |CriteriaOpen| <= |s| && StartsWith(s[p..], CriteriaOpen)
    requires p + |CriteriaOpen| < lo
    requires var q := p + |CriteriaOpen|;
             forall j :: lo <= j < q + Find(s[q..], '\n') ==> s[j] != '\''
    ensures forall j :: lo <= j ==> !IsMatch(s, p, j)
  {
    var q := p + |CriteriaOpen|;
    LineFacts(s, q);
  }

  /** Where the greedy `(.+)'` closes for an opening at `p`: the last quote on the
      opening's line that leaves at least one character to capture. */
  function CloseAt(s: string, p: nat): (r: Option<nat>)
    ensures r.Some? ==> IsMatch(s, p, r.value)
    ensures r.Some? ==> forall j :: r.value < j ==> !IsMatch(s, p, j)
    ensures r.None? ==> forall j :: !IsMatch(s, p, j)
  {
    if p + |CriteriaOpen| <= |s| && StartsWith(s[p..], CriteriaOpen) then
      var q := p + |CriteriaOpen|;
      var lineEnd := q + Find(s[q..], '\n');
      LineFacts(s, q);
      var r := if q < lineEnd then LastQuote(s, q + 1, lineEnd) else None;
      if r.Some? then
        NoCloseFrom(s, p, r.value + 1);
        r
      else
        NoCloseFrom(s, p, q + 1);
        r
    else None
  }

  /** The leftmost opening at or after `p` that the pattern can close, with its close. */
  function FirstMatchFrom(s: string, p: nat): (r: Option<(nat, nat)>)
    ensures r.Some? ==> p <= r.value.0 && IsMatch(s, r.value.0, r.value.1)
    ensures r.Some? ==> forall j :: r.value.1 < j ==> !IsMatch(s, r.value.0, j)
    ensures r.Some? ==> forall p', j :: p <= p' < r.value.0 ==> !IsMatch(s, p', j)
    ensures r.None? ==> forall p', j :: p <= p' ==> !IsMatch(s, p', j)
    decreases |s| - p
  {
    if p >= |s| then None
    else
      match CloseAt(s, p)
      case Some(j) => Some((p, j))
      case None => FirstMatchFrom(s, p + 1)
  }

  /** findall("criteria = '(.+)'", content)[0], or None when there is no match. */
  function CriteriaPayload(content: string): (r: Option<string>)
    ensures r.None? <==> forall p, j :: !IsMatch(content, p, j)
    ensures r.Some? ==> r.value != [] && '\n' !in r.value
    ensures r.Some? ==> exists p, j :: IsMatch(content, p, j) && r.value == content[p + |CriteriaOpen|..j] &&
                          (forall p', j' :: p' < p ==> !IsMatch(content, p', j')) &&
                          (forall j' :: j < j' ==> !IsMatch(content, p, j'))
  {
    match FirstMatchFrom(content, 0)
    case None => None
    case Some((p, j)) => Some(content[p + |CriteriaOpen|..j])
  }

  /** No opening can start inside a quote-free prefix: the opening's own quote
      would have to fall there or inside the real opening before its quote. */
  lemma NoOpeningBefore(pre: string, rest: string)
    requires '\'' !in pre
    ensures NoMatchBefore(pre + CriteriaOpen + rest, |pre|)
  {
    var s := pre + CriteriaOpen + rest;
    forall q | 11 <= q < |pre| + 11 && q < |s|
      ensures s[q] != '\''
    {
      if q < |pre| {
        assert s[q] == pre[q];
      } else {
        assert s[q] == CriteriaOpen[q - |pre|];
      }
    }
    forall p, j | p < |pre|
      ensures !IsMatch(s, p, j)
    {
      if 0 <= p && p + |CriteriaOpen| <= |s| {
        assert s[p..][..|CriteriaOpen|][11] == s[p + 11];
      }
    }
  }

  /** An opening followed by a one-line payload and a quote that ends its line
      matches there and closes nowhere later. */
  lemma MatchAtLineEnd(pre: string, payload: string, post: string)
    requires payload != [] && '\n' !in payload
    requires post == [] || post[0] == '\n'
    ensures var s := pre + CriteriaOpen + (payload + "'" + post);
            var p0, j0 := |pre|, |pre| + |CriteriaOpen| + |payload|;
            IsMatch(s, p0, j0) && s[p0 + |CriteriaOpen|..j0] == payload && NoMatchAfter(s, p0, j0)
  {
    var s := pre + CriteriaOpen + (payload + "'" + post);
    var p0, j0 := |pre|, |pre| + |CriteriaOpen| + |payload|;
    assert s[p0..][..|CriteriaOpen|] == CriteriaOpen;
    assert s[p0 + |CriteriaOpen|..j0] == payload;
    assert IsMatch(s, p0, j0);
    forall j | j0 < j
      ensures !IsMatch(s, p0, j)
    {
      if j < |s| {
        assert s[j0 + 1] == post[0];
        if j == j0 + 1 {
          assert s[j] == '\n';
        } else {
          assert s[p0 + |CriteriaOpen|..j][j0 + 1 - p0 - |CriteriaOpen|] == '\n';
        }
      }
    }
  }

  /** The leftmost match, closed as late as it can be, is the one findall reports first. */
  lemma FirstMatchIs(s: string, p0: nat, j0: nat)
    requires IsMatch(s, p0, j0) && NoMatchBefore(s, p0) && NoMatchAfter(s, p0, j0)
    ensures CriteriaPayload(s) == Some(s[p0 + |CriteriaOpen|..j0])
  {
    var m := FirstMatchFrom(s, 0);
    assert m.Some?;
    var (p, j) := m.value;
    assert !(p < p0) && !(p0 < p);
    assert !(j < j0) && !(j0 < j);
  }

  /** A page holding `criteria = '<payload>'` at the end of a line, with no quote
      before it, yields exactly that payload. */
  lemma CriteriaPayloadOf(pre: string, payload: string, post: string)
    requires '\'' !in pre
    requires payload != [] && '\n' !in payload
    requires post == [] || post[0] == '\n'
    ensures CriteriaPayload(pre + CriteriaOpen + (payload + "'" + post)) == Some(payload)
  {
    var s := pre + CriteriaOpen + (payload + "'" + post);
    var p0, j0 := |pre|, |pre| + |CriteriaOpen| + |payload|;
    assert NoMatchBefore(s, p0) by {
      NoOpeningBefore(pre, payload + "'" + post);
    }
    assert IsMatch(s, p0, j0) && s[p0 + |CriteriaOpen|..j0] == payload && NoMatchAfter(s, p0, j0) by {
      MatchAtLineEnd(pre, payload, post);
    }
    FirstMatchIs(s, p0, j0);
  }

  /** A segment the filter keeps: `tag and tag.startswith('7:')`. */
  predicate IsTagSegment(seg: string) {
    seg != "" && StartsWith(seg, TagMarker)
  }

  /** [seg.replace('7:', '') for seg in segs if IsTagSegment(seg)] */
  function TagsOfSegments(segs: seq<string>): (tags: seq<string>)
    ensures |tags| <= |segs|
    decreases |segs|
  {
    if |segs| == 0 then []
    else if IsTagSegment(segs[0]) then [RemoveAll(segs[0], TagMarker)] + TagsOfSegments(segs[1..])
    else TagsOfSegments(segs[1..])
  }

  /** The filter on a segment followed by more segments. */
  lemma TagsOfSegmentsCons(seg: string, rest: seq<string>)
    ensures TagsOfSegments([seg] + rest) ==
            (if IsTagSegment(seg) then [RemoveAll(seg, TagMarker)] else []) + TagsOfSegments(rest)
  {
    assert ([seg] + rest)[1..] == rest;
  }

  /** The filter and the kept indices, one segment at a time. */
  lemma SegmentStep(segs: seq<string>, from: nat)
    requires from < |segs|
    ensures TagsOfSegments(segs[from..]) ==
            (if IsTagSegment(segs[from]) then [RemoveAll(segs[from], TagMarker)] else []) + TagsOfSegments(segs[from + 1..])
    ensures KeptIndices(segs, IsTagSegment, from) == (if IsTagSegment(segs[from]) then [from] else []) + KeptIndices(segs, IsTagSegment, from + 1)
  {
    assert segs[from..] == [segs[from]] + segs[from + 1..];
    TagsOfSegmentsCons(segs[from], segs[from + 1..]);
  }

  /** The tags are exactly the kept segments, in segment order, each with every
      `7:` removed. */
  lemma {:induction false} TagsFollowSegments(segs: seq<string>, from: nat)
    requires from <= |segs|
    ensures var tags := TagsOfSegments(segs[from..]);
            var ix := KeptIndices(segs, IsTagSegment, from);
            |tags| == |ix| &&
            forall k :: 0 <= k < |tags| ==> tags[k] == RemoveAll(segs[ix[k]], TagMarker)
    decreases |segs| - from
  {
    if from < |segs| {
      TagsFollowSegments(segs, from + 1);
      SegmentStep(segs, from);
    }
  }

  /** The tags carried by one criteria payload: its `|`-separated segments, filtered. */
  function TagsOfPayload(payload: string): (tags: seq<string>)
    ensures |tags| <= |Split(payload, '|')|
  {
    TagsOfSegments(Split(payload, '|'))
  }

  /** A payload assembled from segments yields the tags of those segments. */
  lemma TagsOfJoinedSegments(segs: seq<string>)
    requires |segs| >= 1
    requires forall k :: 0 <= k < |segs| ==> '|' !in segs[k]
    ensures TagsOfPayload(Join(segs, '|')) == TagsOfSegments(segs)
  {
    SplitJoin(segs, '|');
  }

  /** `t` is some kept segment of `segs` with every `7:` removed. */
  ghost predicate TagOfSegment(segs: seq<string>, t: string) {
    exists i :: 0 <= i < |segs| && IsTagSegment(segs[i]) && t == RemoveAll(segs[i], TagMarker)
  }

  /** Each tag of a payload is a kept segment of it with every `7:` removed. */
  lemma TagsOfPayloadKept(payload: string)
    ensures forall k :: 0 <= k < |TagsOfPayload(payload)| ==>
              TagOfSegment(Split(payload, '|'), TagsOfPayload(payload)[k])
  {
    var segs := Split(payload, '|');
    var tags := TagsOfPayload(payload);
    TagsFollowSegments(segs, 0);
    assert segs[0..] == segs;
    assert tags == TagsOfSegments(segs[0..]);
    var ix := KeptIndices(segs, IsTagSegment, 0);
    forall k | 0 <= k < |tags|
      ensures TagOfSegment(segs, tags[k])
    {
      KeptIndicesKept(segs, IsTagSegment, 0, k);
      var i := ix[k];
      assert 0 <= i < |segs| && IsTagSegment(segs[i]) && tags[k] == RemoveAll(segs[i], TagMarker);
    }
  }

  /** get_tags(book_content): nothing without a criteria payload; otherwise at most
      one tag per `|`-segment, each a kept segment with every `7:` removed. */
  function GetTags(content: string): (tags: seq<string>)
    ensures CriteriaPayload(content).None? ==> tags == []
    ensures CriteriaPayload(content).Some? ==>
              |tags| <= |Split(CriteriaPayload(content).value, '|')|
    ensures CriteriaPayload(content).Some? ==>
              forall k :: 0 <= k < |tags| ==> TagOfSegment(Split(CriteriaPayload(content).value, '|'), tags[k])
  {
    match CriteriaPayload(content)
    case None => []
    case Some(payload) =>
      TagsOfPayloadKept(payload);
      TagsOfPayload(payload)
  }

  /** Segments without line breaks join into a line without line breaks. */
  lemma {:induction false} JoinNoLineBreak(segs: seq<string>)
    requires |segs| >= 1
    requires forall k :: 0 <= k < |segs| ==> '\n' !in segs[k]
    ensures '\n' !in Join(segs, '|')
    decreases |segs|
  {
    if |segs| > 1 {
      JoinNoLineBreak(segs[1..]);
    }
  }

  /** A page whose criteria line carries the `|`-joined segments, with no quote
      before it, yields exactly the tags of those segments. */
  lemma GetTagsOf(pre: string, segs: seq<string>, post: string)
    requires '\'' !in pre
    requires |segs| >= 1 && Join(segs, '|') != []
    requires forall k :: 0 <= k < |segs| ==> '|' !in segs[k] && '\n' !in segs[k]
    requires post == [] || post[0] == '\n'
    ensures GetTags(pre + CriteriaOpen + (Join(segs, '|') + "'" + post)) == TagsOfSegments(segs)
  {
    JoinNoLineBreak(segs);
    CriteriaPayloadOf(pre, Join(segs, '|'), post);
    TagsOfJoinedSegments(segs);
  }

  /** A marked segment whose rest has no `7` loses exactly its marker. */
  lemma RemoveTagMarker(rest: string)
    requires '7' !in rest
    ensures IsTagSegment(TagMarker + rest)
    ensures RemoveAll(TagMarker + rest, TagMarker) == rest
  {
    RemoveAllLeading(TagMarker, rest);
    if Contains(rest, TagMarker) {
      ContainsFirstChar(rest, TagMarker);
    }
    assert (TagMarker + rest)[..2] == TagMarker;
  }

  /** The marker is removed in the middle of a segment as well as at its start. */
  lemma RemoveMarkerInside()
    ensures RemoveAll("7:a7:b", TagMarker) == "ab"
  {
    assert "7:a7:b" == "7:a" + TagMarker + "b";
    RemoveAllSplits("7:a", TagMarker, "b");
    assert "7:a" == TagMarker + "a";
    RemoveAllLeading(TagMarker, "a");
    assert RemoveAll("a", TagMarker) == "a";
    assert RemoveAll("b", TagMarker) == "b";
  }

  /** Joining a piece followed by more pieces. */
  lemma JoinCons(part: string, rest: seq<string>, sep: char)
    requires |rest| >= 1
    ensures Join([part] + rest, sep) == part + [sep] + Join(rest, sep)
  {
    assert ([part] + rest)[1..] == rest;
  }

  const ExampleSegments: seq<string> := [TagMarker + "fiction", TagMarker + "classic", "3:other"]

  lemma ExampleJoin()
    ensures Join(ExampleSegments, '|') == "7:fiction|7:classic|3:other"
  {
    assert TagMarker + "fiction" == "7:fiction" && TagMarker + "classic" == "7:classic";
    assert ExampleSegments == ["7:fiction"] + (["7:classic"] + ["3:other"]);
    JoinCons("7:classic", ["3:other"], '|');
    JoinCons("7:fiction", ["7:classic"] + ["3:other"], '|');
    assert Join(["3:other"], '|') == "3:other";
  }

  lemma ExampleFilter()
    ensures TagsOfSegments(ExampleSegments) == ["fiction", "classic"]
  {
    RemoveTagMarker("fiction");
    RemoveTagMarker("classic");
    assert "3:other"[..2][0] != TagMarker[0];
    TagsOfSegmentsCons("3:other", []);
    TagsOfSegmentsCons(TagMarker + "classic", ["3:other"]);
    TagsOfSegmentsCons(TagMarker + "fiction", [TagMarker + "classic", "3:other"]);
    assert ExampleSegments == [TagMarker + "fiction"] + [TagMarker + "classic", "3:other"];
    assert [TagMarker + "classic", "3:other"] == [TagMarker + "classic"] + ["3:other"];
  }

  /** `7:fiction|7:classic|3:other` gives ["fiction", "classic"]: the `3:` segment is dropped. */
  lemma TagsExample()
    ensures TagsOfPayload("7:fiction|7:classic|3:other") == ["fiction", "classic"]
  {
    ExampleJoin();
    TagsOfJoinedSegments(ExampleSegments);
    ExampleFilter();
  }
}

=== FILE: text.dfy ===
/** The str operations of Python that the scraper uses, on strings of Unicode scalar values. */
module Text {

  /** str.isspace() for one character: the Unicode whitespace characters. */
  predicate IsSpace(c: char) {
    || ('\t' <= c <= '\r')
    || ('\U{1C}' <= c <= '\U{1F}')
    || c == ' '
    || c == '\U{85}'
    || c == '\U{A0}'
    || c == '\U{1680}'
    || ('\U{2000}' <= c <= '\U{200A}')
    || c == '\U{2028}'
    || c == '\U{2029}'
    || c == '\U{202F}'
    || c == '\U{205F}'
    || c == '\U{3000}'
  }

  ghost predicate Blank(s: string) {
    forall i :: 0 <= i < |s| ==> IsSpace(s[i])
  }

  /** Neither end of `s` is whitespace. */
  ghost predicate Trimmed(s: string) {
    s == [] || (!IsSpace(s[0]) && !IsSpace(s[|s| - 1]))
  }

  /** The first index from `i` on that is not whitespace, or |s|. */
  function SpaceEnd(s: string, i: nat): (r: nat)
    requires i <= |s|
    ensures i <= r <= |s|
    ensures forall k :: i <= k < r ==> IsSpace(s[k])
    ensures r < |s| ==> !IsSpace(s[r])
    decreases |s| - i
  {
    if i < |s| && IsSpace(s[i]) then SpaceEnd(s, i + 1) else i
  }

  /** The index just after the last non-whitespace character of s[lo..j], or lo. */
  function SpaceStart(s: string, lo: nat, j: nat): (r: nat)
    requires lo <= j <= |s|
    ensures lo <= r <= j
    ensures forall k :: r <= k < j ==> IsSpace(s[k])
    ensures r > lo ==> !IsSpace(s[r - 1])
    decreases j
  {
    if lo < j && IsSpace(s[j - 1]) then SpaceStart(s, lo, j - 1) else j
  }

  /** str.strip() with no argument: the text between the leading and the trailing
      whitespace. */
  function Strip(s: string): (r: string)
    ensures |r| <= |s|
    ensures Trimmed(r)
    ensures r == [] <==> Blank(s)
    ensures Trimmed(s) ==> r == s
    ensures exists a, b :: 0 <= a <= b <= |s| && r == s[a..b] && Blank(s[..a]) && Blank(s[b..])
  {
    var a := SpaceEnd(s, 0);
    var b := SpaceStart(s, a, |s|);
    assert b > a ==> s[a..b][0] == s[a] && s[a..b][b - a - 1] == s[b - 1];
    assert b == a ==> forall k :: 0 <= k < |s| ==> (k < a || a <= k) && IsSpace(s[k]);
    assert s[0..|s|] == s;
    assert Blank(s[..a]) && Blank(s[b..]);
    s[a..b]
  }

  /** Strip is the only way to cut `s` into blank text, trimmed text and blank text. */
  lemma StripUnique(s: string, a: nat, b: nat)
    requires a <= b <= |s| && Trimmed(s[a..b]) && Blank(s[..a]) && Blank(s[b..])
    ensures Strip(s) == s[a..b]
  {
    var a0 := SpaceEnd(s, 0);
    var b0 := SpaceStart(s, a0, |s|);
    assert forall k :: 0 <= k < a ==> IsSpace(s[k]) by {
      forall k | 0 <= k < a ensures IsSpace(s[k]) { assert s[..a][k] == s[k]; }
    }
    assert forall k :: b <= k < |s| ==> IsSpace(s[k]) by {
      forall k | b <= k < |s| ensures IsSpace(s[k]) { assert s[b..][k - b] == s[k]; }
    }
    if a < b {
      assert !IsSpace(s[a]) && !IsSpace(s[b - 1]) by {
        assert s[a..b][0] == s[a] && s[a..b][b - a - 1] == s[b - 1];
      }
      assert a0 == a;
      assert b0 == b;
    } else {
      assert forall k :: 0 <= k < |s| ==> IsSpace(s[k]);
      assert a0 == |s| && b0 == |s|;
    }
  }

  lemma StripIdempotent(s: string)
    ensures Strip(Strip(s)) == Strip(s)
  {
  }

  /** str.startswith(p). */
  predicate StartsWith(s: string, p: string) {
    |p| <= |s| && s[..|p|] == p
  }

  /** str.endswith(p). */
  predicate EndsWith(s: string, p: string) {
    |p| <= |s| && s[|s| - |p|..] == p
  }

  /** The `in` operator on strings: `p` occurs somewhere in `s`. */
  predicate Contains(s: string, p: string)
    decreases |s|
  {
    StartsWith(s, p) || (|s| > 0 && Contains(s[1..], p))
  }

  /** `p` occurs in `s` starting at index `i`. */
  ghost predicate OccursAt(s: string, p: string, i: int) {
    0 <= i && i + |p| <= |s| && s[i..i + |p|] == p
  }

  /** `p in s`: some slice of `s` is `p`. */
  lemma {:induction false} ContainsAt(s: string, p: string)
    ensures Contains(s, p) <==> exists i :: OccursAt(s, p, i)
    decreases |s|
  {
    if StartsWith(s, p) {
      assert OccursAt(s, p, 0) by {
        assert s[0..|p|] == s[..|p|];
      }
    } else if |s| > 0 {
      ContainsAt(s[1..], p);
      if i :| OccursAt(s[1..], p, i) {
        assert OccursAt(s, p, i + 1) by {
          assert s[1..][i..i + |p|] == s[i + 1..i + 1 + |p|];
        }
      }
      if i :| OccursAt(s, p, i) {
        if i > 0 {
          assert OccursAt(s[1..], p, i - 1) by {
            assert s[1..][i - 1..i - 1 + |p|] == s[i..i + |p|];
          }
        }
      }
    }
  }

  /** The index of the first `c` in `s`, or |s| when there is none. */
  function Find(s: string, c: char): (i: nat)
    ensures i <= |s|
    ensures i < |s| ==> s[i] == c
    ensures c !in s[..i]
    ensures i == |s| <==> c !in s
  {
    if |s| == 0 then 0
    else if s[0] == c then 0
    else
      var k := Find(s[1..], c);
      assert s[..k + 1] == [s[0]] + s[1..][..k];
      k + 1
  }

  /** In `a + [c] + b` with no `c` in `a`, the first `c` sits right after `a`. */
  lemma FindAfter(a: string, c: char, b: string)
    requires c !in a
    ensures Find(a + [c] + b, c) == |a|
  {
    var s := a + [c] + b;
    assert s[..|a|] == a;
    assert s[|a|] == c;
  }

  /** The pieces of `parts` glued back together with `sep` between them. */
  function Join(parts: seq<string>, sep: char): string
    requires |parts| >= 1
    decreases |parts|
  {
    if |parts| == 1 then parts[0] else parts[0] + [sep] + Join(parts[1..], sep)
  }

  /** str.split(sep) for a one-character separator: always at least one piece,
      no piece holds the separator, and joining the pieces gives `s` back. */
  function Split(s: string, sep: char): (parts: seq<string>)
    ensures |parts| >= 1
    ensures forall k :: 0 <= k < |parts| ==> sep !in parts[k]
    ensures Join(parts, sep) == s
    decreases |s|
  {
    if |s| == 0 then [""]
    else
      var rest := Split(s[1..], sep);
      if s[0] == sep then
        assert ([""] + rest)[1..] == rest;
        [""] + rest
      else
        var parts := [[s[0]] + rest[0]] + rest[1..];
        assert |rest| > 1 ==> parts[1..] == rest[1..];
        parts
  }

  /** A piece with no separator in front of more text splits off as the first piece. */
  lemma {:induction false} SplitCons(a: string, sep: char, b: string)
    requires sep !in a
    ensures Split(a + [sep] + b, sep) == [a] + Split(b, sep)
    decreases |a|
  {
    var s := a + [sep] + b;
    if |a| == 0 {
      assert s == [sep] + b;
      assert s[1..] == b;
    } else {
      var rest := Split(s[1..], sep);
      assert rest == [a[1..]] + Split(b, sep) by {
        assert s[1..] == a[1..] + [sep] + b;
        SplitCons(a[1..], sep, b);
      }
      assert s[0] == a[0] && a[0] != sep;
      assert Split(s, sep) == [[s[0]] + rest[0]] + rest[1..];
      assert [a[0]] + a[1..] == a;
    }
  }

  /** A string without the separator is one piece. */
  lemma {:induction false} SplitNoSeparator(a: string, sep: char)
    requires sep !in a
    ensures Split(a, sep) == [a]
    decreases |a|
  {
    if |a| > 0 {
      SplitNoSeparator(a[1..], sep);
      assert [a[0]] + a[1..] == a;
    }
  }

  /** Splitting undoes joining when no piece holds the separator. */
  lemma {:induction false} SplitJoin(parts: seq<string>, sep: char)
    requires |parts| >= 1
    requires forall k :: 0 <= k < |parts| ==> sep !in parts[k]
    ensures Split(Join(parts, sep), sep) == parts
    decreases |parts|
  {
    if |parts| == 1 {
      SplitNoSeparator(parts[0], sep);
    } else {
      SplitJoin(parts[1..], sep);
      SplitCons(parts[0], sep, Join(parts[1..], sep));
      assert [parts[0]] + parts[1..] == parts;
    }
  }

  /** The first piece of a split is the text before the first separator,
      and a second piece exists exactly when the separator occurs. */
  lemma {:induction false} SplitHead(s: string, sep: char)
    ensures Split(s, sep)[0] == s[..Find(s, sep)]
    ensures |Split(s, sep)| >= 2 <==> sep in s
    decreases |s|
  {
    if |s| > 0 {
      SplitHead(s[1..], sep);
      if s[0] != sep {
        assert s[..Find(s, sep)] == [s[0]] + s[1..][..Find(s[1..], sep)];
      }
    }
  }

  /** The second piece of a split is the text between the first and the second separator. */
  lemma SplitSecond(s: string, sep: char)
    requires sep in s
    ensures |Split(s, sep)| >= 2
    ensures var i := Find(s, sep);
            Split(s, sep)[1] == s[i + 1..][..Find(s[i + 1..], sep)]
  {
    var i := Find(s, sep);
    SplitHead(s, sep);
    assert s == s[..i] + [sep] + s[i + 1..];
    SplitCons(s[..i], sep, s[i + 1..]);
    SplitHead(s[i + 1..], sep);
  }

  /** str.replace(pat, '') : every occurrence of `pat` found scanning left to right,
      without overlaps, is deleted. */
  function RemoveAll(s: string, pat: string): (r: string)
    requires |pat| > 0
    ensures |r| <= |s|
    ensures !Contains(s, pat) ==> r == s
    decreases |s|
  {
    if |s| == 0 then s
    else if StartsWith(s, pat) then RemoveAll(s[|pat|..], pat)
    else
      assert [s[0]] + s[1..] == s;
      [s[0]] + RemoveAll(s[1..], pat)
  }

  /** One step of the scan: text that does not start with the pattern keeps its first character. */
  lemma RemoveAllCons(x: char, u: string, pat: string)
    requires |pat| > 0 && !StartsWith([x] + u, pat)
    ensures RemoveAll([x] + u, pat) == [x] + RemoveAll(u, pat)
  {
    assert ([x] + u)[1..] == u;
  }

  /** One step of the scan: a leading occurrence of the pattern is dropped. */
  lemma RemoveAllDrop(s: string, pat: string)
    requires |pat| > 0 && |s| > 0 && StartsWith(s, pat)
    ensures RemoveAll(s, pat) == RemoveAll(s[|pat|..], pat)
  {
  }

  /** An occurrence of `pat` puts its first character into `s`. */
  lemma {:induction false} ContainsFirstChar(s: string, pat: string)
    requires |pat| > 0 && Contains(s, pat)
    ensures pat[0] in s
    decreases |s|
  {
    if !StartsWith(s, pat) {
      ContainsFirstChar(s[1..], pat);
      assert s[1..] == s[1..|s|];
    } else {
      assert s[0] == pat[0];
    }
  }

  /** A leading occurrence of `pat` is dropped along with the ones after it. */
  lemma RemoveAllLeading(pat: string, t: string)
    requires |pat| > 0
    ensures RemoveAll(pat + t, pat) == RemoveAll(t, pat)
  {
    assert StartsWith(pat + t, pat);
    assert (pat + t)[|pat|..] == t;
  }

  /** A two-character pattern made of two different characters cannot overlap itself, so an
      occurrence placed after `a` is never swallowed by an occurrence straddling it. */
  predicate NonOverlapping(pat: string)
  {
    |pat| == 2 && pat[0] != pat[1]
  }

  /** Removal distributes over an occurrence of the pattern: the occurrence is deleted and the
      text on either side is cleaned independently, so every occurrence goes, wherever it sits. */
  lemma {:induction false} RemoveAllSplits(a: string, pat: string, b: string)
    requires NonOverlapping(pat)
    ensures RemoveAll(a + pat + b, pat) == RemoveAll(a, pat) + RemoveAll(b, pat)
    decreases |a|, 1
  {
    if |a| == 0 {
      assert a + pat + b == pat + b;
      RemoveAllLeading(pat, b);
    } else if StartsWith(a, pat) {
      DropSplits(a, pat, b);
    } else {
      KeepSplits(a, pat, b);
    }
  }

  /** RemoveAllSplits when `a` starts with the pattern. */
  lemma {:induction false} DropSplits(a: string, pat: string, b: string)
    requires NonOverlapping(pat) && StartsWith(a, pat)
    ensures RemoveAll(a + pat + b, pat) == RemoveAll(a, pat) + RemoveAll(b, pat)
    decreases |a|, 0
  {
    var s := a + pat + b;
    var t := a[2..];
    assert StartsWith(s, pat) && s[2..] == t + pat + b by {
      assert s[..2] == a[..2];
    }
    RemoveAllDrop(s, pat);
    RemoveAllDrop(a, pat);
    RemoveAllSplits(t, pat, b);
  }

  /** RemoveAllSplits when `a` keeps its first character. */
  lemma {:induction false} KeepSplits(a: string, pat: string, b: string)
    requires NonOverlapping(pat) && |a| > 0 && !StartsWith(a, pat)
    ensures RemoveAll(a + pat + b, pat) == RemoveAll(a, pat) + RemoveAll(b, pat)
    decreases |a|, 0
  {
    var x, t := a[0], a[1..];
    ConsSplit(a, pat, b);
    NoStraddle(x, t, pat, b);
    RemoveAllCons(x, t + pat + b, pat);
    RemoveAllCons(x, t, pat);
    RemoveAllSplits(t, pat, b);
    ConsAssoc(x, RemoveAll(t, pat), RemoveAll(b, pat));
  }

  /** Text that does not start with a non-overlapping pattern still does not once an
      occurrence of it is put after its first character. */
  lemma NoStraddle(x: char, t: string, pat: string, b: string)
    requires NonOverlapping(pat) && !StartsWith([x] + t, pat)
    ensures !StartsWith([x] + (t + pat + b), pat)
  {
    if |t| == 0 {
      assert ([x] + (t + pat + b))[1] == pat[0];
    } else {
      assert ([x] + (t + pat + b))[..2] == ([x] + t)[..2];
    }
  }

  lemma ConsSplit(a: string, pat: string, b: string)
    requires |a| > 0
    ensures a == [a[0]] + a[1..] && a + pat + b == [a[0]] + (a[1..] + pat + b)
  {
  }

  lemma ConsAssoc(x: char, p: string, q: string)
    ensures [x] + (p + q) == ([x] + p) + q
  {
  }
}

=== FILE: tree.dfy ===
/** The parsed HTML as the scraper sees it through lxml, and its two text helpers. */
module Tree {
  import opened Wrappers
  import opened Text

  /** An lxml element: tag, attributes, the text before its first child element,
      the `tail` text between its end tag and the next sibling, its child elements
      and the sibling element that follows it. lxml reports missing text or tail
      as None; every test the scraper makes on them treats None like "", so
      "" stands for both. */
  datatype Node = Node(
    tag: string,
    attrs: map<string, string>,
    text: string,
    tail: string,
    children: seq<Node>,
    next: Option<Node>)

  /** What get_text is handed: an element, the list an XPath query returned, or None
      (what getnext() gives for the last sibling). */
  datatype Target = Element(node: Node) | ElementList(nodes: seq<Node>) | NoElement

  /** element.getnext() */
  function NextOf(n: Node): (t: Target)
    ensures t.NoElement? <==> n.next.None?
  {
    match n.next
    case Some(m) => Element(m)
    case None => NoElement
  }

  /** element.attrib[key]: KeyError when the attribute is missing. */
  function Attr(n: Node, key: string): (r: Result<string>)
    ensures r.Ok? <==> key in n.attrs
    ensures r.Ok? ==> r.value == n.attrs[key]
    ensures r.Raise? ==> r.exc == KeyError(key)
  {
    if key in n.attrs then Ok(n.attrs[key]) else Raise(KeyError(key))
  }

  /** `text if text else default` */
  function OrDefault(text: string, default: string): string {
    if text != "" then text else default
  }

  /** get_text(element, default). For an element it reads the first child's text
      when that child exists and has text, the element's own text otherwise; for
      an XPath result list it reads the first item's text; a blank or missing text
      gives the default. None has no len() and raises TypeError. */
  function GetText(t: Target, default: string): (r: Result<string>)
    ensures r.Raise? <==> t.NoElement?
    ensures r.Raise? ==> r.exc == TypeError
    ensures r.Ok? ==> r.value == default || (r.value != "" && Trimmed(r.value))
    ensures r.Ok? && default != "" ==> r.value != ""
    // The first child's text takes precedence whenever it is non-empty,
    // even when it is only whitespace and the element's own text is not.
    ensures t.Element? && |t.node.children| > 0 && t.node.children[0].text != "" ==>
              r == Ok(OrDefault(Strip(t.node.children[0].text), default))
    ensures t.Element? && (|t.node.children| == 0 || t.node.children[0].text == "") ==>
              r == Ok(OrDefault(Strip(t.node.text), default))
    // A list is not an element: only its first item's text is consulted.
    ensures t.ElementList? ==>
              r == Ok(if |t.nodes| > 0 then OrDefault(Strip(t.nodes[0].text), default) else default)
  {
    match t
    case NoElement => Raise(TypeError)
    case Element(n) =>
      if |n.children| > 0 && n.children[0].text != "" then Ok(OrDefault(Strip(n.children[0].text), default))
      else if n.text != "" then Ok(OrDefault(Strip(n.text), default))
      else Ok(default)
    case ElementList(ns) =>
      if |ns| > 0 && ns[0].text != "" then Ok(OrDefault(Strip(ns[0].text), default))
      else Ok(default)
  }

  /** get_text on an element, which never raises. */
  function NodeText(n: Node, default: string): (r: string)
    ensures GetText(Element(n), default) == Ok(r)
  {
    GetText(Element(n), default).value
  }

  /** get_text on an XPath result list, which never raises. */
  function ListText(ns: seq<Node>, default: string): (r: string)
    ensures GetText(ElementList(ns), default) == Ok(r)
    ensures |ns| == 0 ==> r == default
  {
    GetText(ElementList(ns), default).value
  }

  /** get_tail(element, default): the stripped tail; a tail that is present but blank
      falls back, one level only, to get_text of the next sibling. */
  function GetTail(n: Node, default: string): (r: Result<string>)
    ensures n.tail == "" ==> r == Ok(default)
    ensures !Blank(n.tail) ==> r == Ok(Strip(n.tail))
    ensures n.tail != "" && Blank(n.tail) ==> r == GetText(NextOf(n), default)
    ensures r.Raise? <==> n.tail != "" && Blank(n.tail) && n.next.None?
    ensures r.Ok? && default != "" ==> r.value != ""
  {
    if n.tail == "" then Ok(default)
    else
      var text := Strip(n.tail);
      if text == "" then GetText(NextOf(n), default)
      else Ok(text)
  }
}

=== FILE: utf8.dfy ===
/** UTF-8 as Python's bytes.decode('utf-8', 'replace') reads it: every maximal
    ill-formed subpart of the input becomes one U+FFFD (section 3.9 of the
    Unicode Standard, "U+FFFD Substitution of Maximal Subparts"). */
module Utf8 {

  type Byte = x: int | 0 <= x < 256

  const Replacement: char := '\U{FFFD}'

  /** The length of the well-formed sequence that lead byte `b` opens, 0 when no sequence starts with `b`. */
  function SequenceLength(b: Byte): nat {
    if b < 0x80 then 1
    else if 0xC2 <= b <= 0xDF then 2
    else if 0xE0 <= b <= 0xEF then 3
    else if 0xF0 <= b <= 0xF4 then 4
    else 0
  }

  /** The bounds of the byte that may follow lead byte `b`; they exclude
      overlong forms, surrogates and code points above U+10FFFF. */
  function SecondLow(b: Byte): Byte {
    if b == 0xE0 then 0xA0 else if b == 0xF0 then 0x90 else 0x80
  }

  function SecondHigh(b: Byte): Byte {
    if b == 0xED then 0x9F else if b == 0xF4 then 0x8F else 0xBF
  }

  predicate IsContinuation(b: Byte) {
    0x80 <= b <= 0xBF
  }

  /** How many bytes after a multi-byte lead continue its sequence correctly. */
  function Continuations(bs: seq<Byte>): (k: nat)
    requires |bs| > 0 && SequenceLength(bs[0]) >= 2
    ensures k < SequenceLength(bs[0]) && k < |bs|
  {
    var n := SequenceLength(bs[0]);
    if |bs| < 2 || !(SecondLow(bs[0]) <= bs[1] <= SecondHigh(bs[0])) then 0
    else if n == 2 || |bs| < 3 || !IsContinuation(bs[2]) then 1
    else if n == 3 || |bs| < 4 || !IsContinuation(bs[3]) then 2
    else 3
  }

  /** The scalar value a complete, well-formed multi-byte sequence encodes. */
  function ScalarOf(bs: seq<Byte>): char
    requires |bs| > 0 && SequenceLength(bs[0]) >= 2
    requires Continuations(bs) == SequenceLength(bs[0]) - 1
  {
    var n := SequenceLength(bs[0]);
    var b0, b1 := bs[0] as int, bs[1] as int;
    if n == 2 then
      ((b0 - 0xC0) * 64 + (b1 - 0x80)) as char
    else if n == 3 then
      ((b0 - 0xE0) * 4096 + (b1 - 0x80) * 64 + (bs[2] as int - 0x80)) as char
    else
      ((b0 - 0xF0) * 262144 + (b1 - 0x80) * 4096 + (bs[2] as int - 0x80) * 64 + (bs[3] as int - 0x80)) as char
  }

  /** bytes.decode('utf-8', 'replace'). */
  function Decode(bs: seq<Byte>): (s: string)
    ensures |s| <= |bs|
    decreases |bs|
  {
    if |bs| == 0 then []
    else
      var n := SequenceLength(bs[0]);
      if n == 1 then [bs[0] as char] + Decode(bs[1..])
      else if n == 0 then [Replacement] + Decode(bs[1..])
      else
        var k := Continuations(bs);
        if k == n - 1 then [ScalarOf(bs)] + Decode(bs[n..])
        else [Replacement] + Decode(bs[k + 1..])
  }

  /** A byte that opens no sequence is one U+FFFD, and decoding goes on after it. */
  lemma DecodeInvalidLead(b: Byte, rest: seq<Byte>)
    requires SequenceLength(b) == 0
    ensures Decode([b] + rest) == [Replacement] + Decode(rest)
  {
    assert ([b] + rest)[1..] == rest;
  }

  /** A multi-byte lead at the end of the input is one U+FFFD. */
  lemma DecodeLeadAtEnd(b: Byte)
    requires SequenceLength(b) >= 2
    ensures Decode([b]) == [Replacement]
  {
    assert [b][1..] == [];
  }

  /** A multi-byte lead followed by a byte outside its second-byte range is one
      U+FFFD, and decoding resumes at that byte. */
  lemma DecodeBadSecond(b: Byte, c: Byte, rest: seq<Byte>)
    requires SequenceLength(b) >= 2
    requires !(SecondLow(b) <= c <= SecondHigh(b))
    ensures Decode([b, c] + rest) == [Replacement] + Decode([c] + rest)
  {
    assert ([b, c] + rest)[1..] == [c] + rest;
  }

  /** A three- or four-byte lead and a good second byte, followed by a byte that does
      not continue them, are one U+FFFD together, and decoding resumes at that byte. */
  lemma DecodeBadThird(b: Byte, c: Byte, d: Byte, rest: seq<Byte>)
    requires SequenceLength(b) >= 3
    requires SecondLow(b) <= c <= SecondHigh(b)
    requires !IsContinuation(d)
    ensures Decode([b, c, d] + rest) == [Replacement] + Decode([d] + rest)
  {
    assert ([b, c, d] + rest)[2..] == [d] + rest;
  }

  /** Examples: a stray continuation byte, a lone 0xFF, and a three-byte sequence cut
      short by the end of the input, each read as one U+FFFD. */
  lemma DecodeReplacementExamples()
    ensures Decode([0x80]) == [Replacement]
    ensures Decode([0xFF, 0x41]) == [Replacement, 'A']
    ensures Decode([0xE2, 0x80]) == [Replacement]
  {
    DecodeInvalidLead(0x80, []);
    DecodeInvalidLead(0xFF, [0x41]);
    assert [0x41][1..] == [];
    assert [0xE2, 0x80][2..] == [];
  }

  /** str.encode('utf-8') of one character. */
  function Encode(c: char): (bs: seq<Byte>)
    ensures 1 <= |bs| <= 4
    ensures |bs| == SequenceLength(bs[0])
    ensures |bs| == 1 <==> c as int < 0x80
  {
    var cp := c as int;
    if cp < 0x80 then [cp]
    else if cp < 0x800 then [0xC0 + cp / 64, 0x80 + cp % 64]
    else if cp < 0x10000 then [0xE0 + cp / 4096, 0x80 + (cp / 64) % 64, 0x80 + cp % 64]
    else [0xF0 + cp / 262144, 0x80 + (cp / 4096) % 64, 0x80 + (cp / 64) % 64, 0x80 + cp % 64]
  }

  /** str.encode('utf-8'). */
  function EncodeString(s: string): seq<Byte>
    decreases |s|
  {
    if |s| == 0 then [] else Encode(s[0]) + EncodeString(s[1..])
  }

  /** Decoding reads back the character an encoding starts with, whatever follows. */
  lemma DecodeEncodeChar(c: char, rest: seq<Byte>)
    ensures Decode(Encode(c) + rest) == [c] + Decode(rest)
  {
    var e := Encode(c);
    var bs := e + rest;
    var n := |e|;
    assert bs[n..] == rest;
    if n > 1 {
      MultiByteReadsBack(c, rest);
    }
  }

  /** A multi-byte encoding is a complete, well-formed sequence whose scalar is the
      encoded character, whatever follows it. */
  lemma MultiByteReadsBack(c: char, rest: seq<Byte>)
    requires c as int >= 0x80
    ensures var bs := Encode(c) + rest;
            Continuations(bs) == |Encode(c)| - 1 && ScalarOf(bs) == c
  {
    var cp := c as int;
    if cp < 0x800 {
      TwoBytesReadBack(c, rest);
    } else if cp < 0x10000 {
      ThreeBytesReadBack(c, rest);
    } else {
      FourBytesReadBack(c, rest);
    }
  }

  lemma TwoBytesReadBack(c: char, rest: seq<Byte>)
    requires 0x80 <= c as int < 0x800
    ensures var bs := Encode(c) + rest;
            Continuations(bs) == 1 && ScalarOf(bs) == c
  {
    var cp := c as int;
    var bs := Encode(c) + rest;
    var d, m := cp / 64, cp % 64;
    assert bs[0] == 0xC0 + d && bs[1] == 0x80 + m;
    assert Continuations(bs) == 1;
    assert ScalarOf(bs) as int == d * 64 + m == cp;
  }

  lemma ThreeBytesReadBack(c: char, rest: seq<Byte>)
    requires 0x800 <= c as int < 0x10000
    ensures var bs := Encode(c) + rest;
            Continuations(bs) == 2 && ScalarOf(bs) == c
  {
    var cp := c as int;
    var bs := Encode(c) + rest;
    var d, m := cp / 64, cp % 64;
    var d2, m2 := d / 64, d % 64;
    assert d2 == cp / 4096;
    assert bs[0] == 0xE0 + d2 && bs[1] == 0x80 + m2 && bs[2] == 0x80 + m;
    assert Continuations(bs) == 2;
    assert ScalarOf(bs) as int == d2 * 4096 + m2 * 64 + m == cp;
  }

  lemma FourBytesReadBack(c: char, rest: seq<Byte>)
    requires 0x10000 <= c as int
    ensures var bs := Encode(c) + rest;
            Continuations(bs) == 3 && ScalarOf(bs) == c
  {
    var cp := c as int;
    var bs := Encode(c) + rest;
    var d, m := cp / 64, cp % 64;
    var d2, m2 := d / 64, d % 64;
    var d3, m3 := d2 / 64, d2 % 64;
    assert d2 == cp / 4096 && d3 == cp / 262144;
    assert bs[0] == 0xF0 + d3 && bs[1] == 0x80 + m3 && bs[2] == 0x80 + m2 && bs[3] == 0x80 + m;
    assert Continuations(bs) == 3;
    assert ScalarOf(bs) as int == d3 * 262144 + m3 * 4096 + m2 * 64 + m == cp;
  }

  /** Round trip: decoding the UTF-8 encoding of a string gives the string back. */
  lemma {:induction false} DecodeEncode(s: string)
    ensures Decode(EncodeString(s)) == s
    decreases |s|
  {
    if |s| > 0 {
      DecodeEncodeChar(s[0], EncodeString(s[1..]));
      DecodeEncode(s[1..]);
      assert [s[0]] + s[1..] == s;
    }
  }
}

=== FILE: wrappers.dfy ===
/** Option and Result values, plus the Python exceptions the scraper can raise. */
module Wrappers {

  datatype Option<+T> = None | Some(value: T)

  /** The exceptions the modelled code lets escape. */
  datatype Exception =
    | KeyError(key: string)   // a missing dict key or element attribute
    | IndexError              // indexing past the end of a list
    | TypeError               // len() of None
    | AttributeError          // an attribute looked up on None

  /** Either a value or the exception that aborted the computation. */
  datatype Result<+T> = Ok(value: T) | Raise(exc: Exception)
}
